=== FILE: README.md ===
# bazels3cache core in Dafny

bazels3cache is a local HTTP proxy between Bazel's remote cache protocol and an S3 bucket.
This project models its request-handling core and proves properties of the model:

- `memory_cache.dfy` (module `MemoryCache`): the size-aware LRU cache of `dist/memorycache.js`.
  The linked recency list is a sequence whose index 0 is the head, so the newest entry is first.
  Buffers are held in a map, and the byte total is kept alongside.
- `circuit_breaker.dfy` (module `CircuitBreaker`): the consecutive-error counter and the pause flag of `dist/server.js`.
- `error_policy.dfy` (module `ErrorPolicy`): which remote-store errors are ignored, and which HTTP status a failed call turns into.
- `depfile.dfy` (module `Depfile`): the gcc dependency-file heuristic, which scans a buffer for the bytes of `.o: \`.
- `router.dfy` (module `Router`): the request handler of `startServer` as pure step functions.
  - There is one step for the synchronous part of each request.
  - There is one step for each promise continuation or stream event it leaves behind: fetch settled, HEAD or DELETE answered, PUT body written, upload settled.
  - The expiry of the pause timer is an explicit event.
  - The state holds the breaker, `pendingUploadBytes`, the keys that have a staging file, the transfers in flight and the cache.
- `json_config.dfy` (module `JsonConfig`): `merge`, `ensureInteger`, `validateConfig` and `getConfig`'s `~` expansion from `dist/config.js`, over a small JSON datatype.
- `startup.dfy` (module `Startup`): connects the two halves.
  - The cache limits of a configuration that passes the intended limit check are consistent.
  - With consistent limits, the server invariant holds after any sequence of events.
  - The limit check as written lets inconsistent limits through (see Findings).
- `results.dfy` (module `Results`): `Option` and `Result`.
- `buffers.dfy` (module `Buffers`): bytes and byte buffers, shared by the cache and the depfile heuristic.

Behaviour of the code worth knowing:

- DELETE does not consult the circuit breaker. It removes the key from the cache and calls the remote store even while the breaker is paused (`dist/server.js:330-346`).
- A DELETE that fails with an ignorable error is answered 404, not success (`prepareErrorResponse(res, err, 404, …)` at `dist/server.js:342`).
- A remote 404 counts as a success for the breaker on GET (`dist/server.js:201-202`). On HEAD and DELETE it counts as a failure (`dist/server.js:321`, `dist/server.js:341`).
- The PUT size limit is the top-level `maxEntrySizeBytes`: a buffer is refused when it is strictly larger, and 0 means unlimited. The cache's admission limit is the separate `cache.maxEntrySizeBytes`: a buffer is admitted when it is strictly smaller.

## Model

| member | source | states |
|---|---|---|
| `MemoryCache.EmptyCache` | dist/memorycache.js:7-13 | A new cache is empty and well formed. It is within the limits of every configuration. |
| `MemoryCache.Contains` | dist/memorycache.js:14-16 | True exactly when the key is on the recency list, i.e. resident. |
| `MemoryCache.DeleteNode` | dist/memorycache.js:69-85 | Unlinking a resident key removes it from both the map and the list. The other keys keep their buffers and relative order. The byte total drops by the key's length, and the structural invariant is kept. |
| `MemoryCache.ContainsAsWritten` | dist/memorycache.js:12-16 | `contains` on the plain object: it throws exactly when a node is cached under "hasOwnProperty", and otherwise answers membership. |
| `MemoryCache.Delete` | dist/memorycache.js:27-35 | Returns true exactly when the key was resident. Afterwards the key is absent. A miss changes nothing, and the capacity invariant is preserved. |
| `MemoryCache.MakeSpace` | dist/memorycache.js:58-64 | A disabled cache is untouched. Otherwise the result keeps a prefix of the recency list, so only the least recently used keys are evicted. The new item then fits, and every longer prefix would still overflow, so the fewest possible entries go. |
| `MemoryCache.Admit` | dist/memorycache.js:39-53 | The new key is at the head with its buffer. The rest of the list is a prefix of the old list, and the byte total accounts for the new buffer. |
| `MemoryCache.MaybeAdd` | dist/memorycache.js:36-57 | Disabled: a no-op. Otherwise an old entry under the key is always removed. A buffer of `maxEntrySizeBytes` or more is then refused. An admitted buffer sits at the head, with minimal tail eviction and untouched values for other keys. The capacity invariant is preserved when the entry limit does not exceed the total limit. |
| `MemoryCache.Get` | dist/memorycache.js:17-26 | A miss returns nothing and changes nothing. A hit returns the stored buffer. Under the capacity invariant a hit moves the key to the head and leaves the key set and byte total unchanged. |
| `MemoryCache.ReinsertEvictsNothing` | dist/memorycache.js:65-68 | Under the capacity invariant, `_moveNodeToHead` (unlink, then `maybeAdd` of the same buffer) evicts nothing. It only moves the key to the head. |
| `MemoryCache.BoundedHitEvictsNothing` | dist/memorycache.js:17-22 | Under the capacity invariant, the re-insertion a hit performs leaves the entries and byte total unchanged and puts the key at the head. |
| `MemoryCache.HasOwnPropertyKeyBreaksContains` | dist/memorycache.js:14-16 | After a buffer is cached under "hasOwnProperty", `contains` as written throws for every key, while `Contains` still answers membership. |
| `MemoryCache.SecondLargeEntryEvictsFirst` | dist/memorycache.js:58-64 | With a 100-byte total, adding a second 60-byte buffer evicts the first, least recent one. |
| `CircuitBreaker.OnError` | dist/server.js:92-108 | A failure adds one to the count. The breaker is paused afterwards exactly when it already was or the count reached `errorsBeforePausing`. |
| `CircuitBreaker.OnSuccess` | dist/server.js:109-111 | A success resets the count and does not unpause. |
| `CircuitBreaker.Unpause` | dist/server.js:100-105 | The pause timer resumes remote access with a zero count. |
| `CircuitBreaker.ConsecutiveErrors` | dist/server.js:97-99 | `n` failures in a row add `n` to the count. They leave the breaker paused exactly when the threshold was reached. |
| `CircuitBreaker.PausesExactlyAtThreshold` | dist/server.js:97-99 | From a closed breaker, the `errorsBeforePausing`-th consecutive failure is the first that pauses. |
| `CircuitBreaker.SuccessRestartsCount` | dist/server.js:109-111 | After a success, fewer than `errorsBeforePausing` further failures do not pause. |
| `ErrorPolicy.IsIgnorableError` | dist/server.js:62-65 | An error is ignorable exactly when the client marked it `retryable === true`, whatever its status code. |
| `ErrorPolicy.ShouldIgnoreError` | dist/server.js:62-68 | An error is ignored exactly when offline use is allowed and the error is retryable. |
| `ErrorPolicy.StatusFor` | dist/server.js:69-76 | An ignored error gives the caller's code. Otherwise the error's own status is used, or 404 when that is missing or 0. |
| `ErrorPolicy.StatusIsNeverZero` | dist/server.js:74 | The `||` fallback never yields status 0. |
| `ErrorPolicy.StrictModeIgnoresNothing` | dist/server.js:66-76 | Without `allowOffline`, the code for ignored errors has no effect. |
| `Depfile.IndexOfFrom` | dist/server.js:135 | Returns the first occurrence of the needle at or after the start position, or -1 when there is none. |
| `Depfile.IsGccDepfile` | dist/server.js:134-136 | True exactly when the body is at most 100000 bytes and contains `.o: \` somewhere. |
| `Depfile.RuleLineIsDepfile` | dist/server.js:134-136 | Any short body containing the rule marker is recognised. |
| `Depfile.LongBodyIsNotDepfile` | dist/server.js:135 | A body over 100000 bytes is never treated as a depfile. |
| `Router.Start` | dist/server.js:86-91 | Start-up state: closed breaker, zero pending bytes, nothing staged or in flight, and an empty well-formed cache. |
| `Router.StartInv` | dist/server.js:86-91 | The server invariant holds at start-up. |
| `Router.KeyOf` | dist/server.js:157 | The key is the URL without its first character, and an empty URL gives the empty key. |
| `Router.Handle` | dist/server.js:157-350 | Dispatches on method and key: GET ping/shutdown/hit/paused/fetch, PUT root/duplicate/stage, HEAD hit/paused/check, DELETE, and 405. A GET hit returns the stored buffer and, under the cache's capacity invariant, moves it to the head without changing the entries. Every path keeps the cache well formed and within its limits. |
| `Router.ResponseLength` | dist/server.js:39-52 | The logged length: a buffer's byte count, a string's UTF-16 length (its characters plus one more for each character beyond U+FFFF), a number as it is, and 0 without a body. |
| `Router.Utf16Length` | dist/server.js:44-45 | A string's JavaScript `length` is exactly its character count plus the number of characters beyond U+FFFF, so it lies between the count and twice it. |
| `Router.PutAcknowledgementLogsSize` | dist/server.js:247-296 | Once a PUT body is written and the breaker is not paused, every acknowledgement logs the staged size as its length. |
| `Router.FetchSettled` | dist/server.js:184-211 | A fetched body is answered 200 and offered to the cache, unless it is a blocked depfile, which is answered 404 and not cached. A 404 error counts as a breaker success and other errors as failures. Every error is answered with the mapped status. Cache limits are preserved. |
| `Router.RemoteAnswered` | dist/server.js:316-345 | The continuation of HEAD and of DELETE: an answer is a breaker success and gets 200. Every error, 404 included, is a breaker failure and is answered with the mapped status. |
| `Router.BodyWritten` | dist/server.js:241-297 | Checks in order: paused, then oversize (0 meaning unlimited), then over budget. Each of these acknowledges 200 and drops the staging file. Only otherwise does an upload start: the budget is charged and stays within the ceiling, and the acknowledgement comes immediately in async mode and is held in sync mode. |
| `Router.UploadSettled` | dist/server.js:271-289 | The upload's outcome goes to the breaker. Its size is released from the budget and its staging file removed. In sync mode the held response is sent, with 200 for an ignored error. |
| `Router.NextKeepsInv` | dist/server.js:241-289 | With consistent cache limits, every possible step keeps the invariant. The cache stays well formed and bounded. Every transfer still has its staging file, and `pendingUploadBytes` is the sum of the transfers in flight, at least 0 and within the ceiling unless it is 0. |
| `Router.PausedBreakerSkipsRemote` | dist/server.js:175-310 | While paused, no GET, HEAD or PUT reaches the remote store. |
| `Router.DeleteIgnoresBreaker` | dist/server.js:330-335 | DELETE calls the remote store even while paused. |
| `Router.NotFoundCountsOnlyAgainstHeadAndDelete` | dist/server.js:198-341 | A remote 404 resets the breaker count on GET and increments it on HEAD and DELETE. |
| `Router.DuplicatePutCollapses` | dist/server.js:219-228 | A second PUT of a key whose staging file exists is acknowledged 200. It stages nothing and starts no upload. |
| `Router.BudgetBackpressure` | dist/server.js:253-258 | A PUT over the pending budget is acknowledged 200 but uploads nothing. It leaves the budget as it was and removes the staging file. |
| `Router.OfflineOutagePausesBreaker` | dist/server.js:198-211 | Offline with retryable errors, each failed GET is answered 404. After `errorsBeforePausing` of them the breaker is paused, and the next GET is answered 404 without a remote call. |
| `Router.DisabledCacheRefetches` | dist/server.js:186-195 | With the cache disabled, a fetched body is returned but not kept, so the same GET goes back to the remote store. |
| `JsonConfig.Coerce` | dist/config.js:48-51 | The strings "true" and "false" become booleans. Every other leaf is unchanged. |
| `JsonConfig.BaseOf` | dist/config.js:45 | `target[key] \|\| {}`: an object contributes its fields, and a falsy value contributes nothing. |
| `JsonConfig.MergeInto` | dist/config.js:42-54 | The result has the union of the keys. Keys the source lacks keep their value, and a source leaf replaces the old value after coercion. |
| `JsonConfig.MergeValue` | dist/config.js:43-53 | A source object yields an object whose keys are those of what the key held (as `target[key] \|\| {}` enumerates them) together with the source's. A source leaf yields that leaf, coerced. |
| `JsonConfig.Merge` | dist/config.js:35-57 | Merging zero sources gives the empty object. |
| `JsonConfig.MergeKeys` | dist/config.js:41-55 | A key is in the result exactly when some source defines it. |
| `JsonConfig.MergeOntoEmpty` | dist/config.js:40-45 | Merging onto `{}` is a deep copy with coercion. This justifies treating the nested `merge(target[key] \|\| {}, value)` as a copy followed by a merge. |
| `JsonConfig.MergeNormal` | dist/config.js:44-53 | No "true"/"false" string survives a merge, at any depth. |
| `JsonConfig.LastLeafWins` | dist/config.js:41-55 | When the last source defining a key gives it a leaf, the result holds that leaf, coerced. Later sources override earlier ones. |
| `JsonConfig.NestedOverrideKeepsSiblings` | dist/config.js:44-45 | Overriding one field of a nested object keeps the other fields. |
| `JsonConfig.MergeTwiceIsMergeOnce` | dist/config.js:35-57 | Merging the same source twice equals merging it once. |
| `JsonConfig.EnsureInteger` | dist/config.js:67-83 | Succeeds exactly for a number or a non-empty all-digit string. A digit string yields its decimal value, and a number is returned unchanged. |
| `JsonConfig.EnsureIntegerReadsDecimal` | dist/config.js:68-73 | The decimal form of every natural number is read back as that number. |
| `JsonConfig.MergeWithPort` | dist/config.js:113 | `merge(config, {port})` is the normalised config with only `port` replaced. |
| `JsonConfig.GreaterThan` | dist/config.js:117 | JavaScript's `>`: two strings compare as text; when neither operand is an object and they are not both strings, the comparison is numeric, with NaN and `undefined` comparing false. |
| `JsonConfig.NumericLimitsCompareAlike` | dist/config.js:117 | Unless both limits are compared as text, the written limit check and the numeric one agree. |
| `JsonConfig.ValidateConfig` | dist/config.js:109-121 | As written. Accepts exactly when all of these hold: the bucket is truthy; the port is an integer in 1024..65535; `cache` is present and not null; the entry limit is not greater than the total limit under JavaScript's `>`. A falsy bucket gives the bucket error. The result is the normalised config with the numeric port. |
| `JsonConfig.ValidateConfigNumeric` | dist/config.js:109-121 | The intended check: the same conditions, with the limits compared as the numbers the cache reads. |
| `JsonConfig.ValidationsAgreeOnNumbers` | dist/config.js:117 | When the limits are not both compared as text, the written and the intended validation give the same result. |
| `JsonConfig.TextComparisonAcceptsInvertedLimits` | dist/config.js:117 | The limits "100" and "20" pass the written check, which compares them as text, and fail the intended one. |
| `JsonConfig.ValidatedPortInRange` | dist/config.js:113-116 | A validated config holds the port as a number in 1024..65535. |
| `JsonConfig.ExpandTilde` | dist/config.js:102-103 | A leading `~` is replaced by the home directory. Any other string is unchanged. |
| `JsonConfig.ExpandTildeIdempotent` | dist/config.js:102-103 | When the home directory does not start with `~`, expanding twice equals expanding once. |
| `JsonConfig.ExpandSetting` | dist/config.js:102-103 | Succeeds exactly when `section.field` is a string. The result replaces only that field, by its tilde expansion, and keeps every other key and field. |
| `JsonConfig.GetConfig` | dist/config.js:87-105 | Succeeds exactly when the merged sources hold `asyncUpload.cacheDir` and `logging.file` as strings. The result is the four sources merged in order, with those two paths tilde-expanded. Every other key, and every other field of those two sections, keeps its merged value. |
| `JsonConfig.GetConfigExpandsPaths` | dist/config.js:102-103 | Afterwards neither `asyncUpload.cacheDir` nor `logging.file` starts with `~`. |
| `Startup.CacheSettings` | dist/memorycache.js:37-60 | The cache's view of its settings exists exactly when `cache` is an object and both limits convert to numbers. `enabled` is read by truthiness, and the limits are those numbers. |
| `Startup.ValidatedCacheIsConsistent` | dist/config.js:117-119 | A configuration that passes the intended check never has an entry limit above its total limit. |
| `Startup.TextLimitsOverflowCache` | dist/config.js:117 | The written check accepts the limits "100" and "20". The cache reads them as 100 and 20, admits a 50-byte buffer, and exceeds its total limit. |
| `Startup.ValidatedServerStaysWithinLimits` | dist/config.js:117-119 | With the cache limits of a configuration that passes the intended check, after any sequence of events every cached buffer is below `maxEntrySizeBytes`, and a non-empty cache is within `maxTotalSizeBytes`. The pending upload bytes stay within the ceiling. |

## Left out

- Logging is not modelled beyond the logged response length: `logProps`, winston and debug output, and all of `dist/logging.js`.
- Timers are not modelled: the socket timeout, the idle-shutdown timer, and the breaker's `setTimeout`. Their expiry appears only as the `PauseElapsed` event, which may occur at any time.
- `Router.NextKeepsInv`: the invariant that `pendingUploadBytes` is the sum of the transfers in flight holds only for runs without a socket timeout (`dist/server.js:141-146`). In sync mode a timeout can end the response before an upload fails. The failure handler's `prepareErrorResponse` then throws on `res.setHeader` (`dist/server.js:79`) because the headers were already sent, so the cleanup at `dist/server.js:286-289` never runs: the bytes stay counted, the staging file stays, and the rejection is unhandled.
- `Startup.ValidatedServerStaysWithinLimits`: its pending-bytes part carries the same restriction to runs without a socket timeout.
- A second pause while already paused starts a second timer. The model does not track timers, so this is covered only by letting `PauseElapsed` occur at any time.
- `process.exit` and the staging-directory wipe on shutdown are not modelled. A GET of `shutdown` only sets the `exit` flag of its step.
- Filesystem staging is abstracted:
  - `mkdirp`, the write and read streams, `rimraf` and `unlink` are not modelled;
  - the staged size is an input to the body-written step;
  - the `statSync` failure path (`dist/server.js:232-240`) is not modelled;
  - `path.join` normalisation of keys is not modelled: a key has a staging file exactly when it is in the staged set.
  - Directories in the staging tree are not modelled. `existsSync` (`dist/server.js:222`) is also true for a directory that `mkdirp.sync` (`dist/server.js:229`) created for a longer key and that `safeUnlinkSync` never removes. So after a PUT of `ac/x` the source acknowledges a PUT of `ac` with 200 and drops it, while the model stages and uploads it.
  - While a staging file for `a` exists, a PUT of `a/b` makes `mkdirp.sync` throw inside the request handler. The model stages that PUT normally.
  - The staging file is taken to exist as soon as a PUT arrives. `createWriteStream` (`dist/server.js:230`) opens it asynchronously, so a second PUT of the same key arriving before the open passes the `existsSync` check, writes into the same file and starts a second upload. The model has at most one transfer per key and does not represent that window.
- `Router.DuplicatePutCollapses`: holds only for a second PUT that arrives after the first one's staging file was opened.
- The S3 client, the bucket name and the ACL are not modelled. Each call is reduced to the outcome its continuation receives.
- The JSON error body written by `prepareErrorResponse`, the headers and `res.end` are not modelled. A response records the error object instead.
- `readConfigFile`, comment-json parsing, `process.env.HOME` and `os.homedir()` are not modelled. The parsed sources and the home directory are inputs.
- `ExpandTilde`: the replacement string is inserted literally. JavaScript's `replace` would interpret `$` patterns in the home directory.
- Keys that collide with `Object.prototype` are not modelled. `entries` is a plain `{}` (`dist/memorycache.js:12`), and the model treats it as a dictionary:
  - Key `__proto__`: `this.entries[s3key] = node` (`dist/memorycache.js:52`) runs the `__proto__` setter and creates no own property, so `contains` stays false. Every GET of `/__proto__` fetches again and links one more node, so the list holds the key repeatedly while the map never holds it. The model caches it and answers the second GET from the cache.
  - Key `hasOwnProperty`: once it is cached, every later `contains` and `delete` throws a `TypeError` inside the request handler of GET, HEAD and DELETE (`dist/server.js:167`, `dist/server.js:304`, `dist/server.js:331`). The model keeps serving normally; `MemoryCache.ContainsAsWritten` shows the throw (see Findings).
- Numbers are integers, so JavaScript's double precision is not modelled:
  - the `Math.floor` test in `ensureInteger` cannot fail;
  - precision loss of `parseInt` on very long digit strings is not modelled;
  - a fractional `maxPendingUploadMB` is not modelled.
- Arrays are not modelled in JSON values; the configuration has none.
- `JsonConfig.ToNumber`: for mixed-type comparisons, strings other than digit strings and the empty string are treated as NaN. JavaScript also reads forms like " 12", "1e3" and "0x10" as numbers.
- `JsonConfig.TextGreater`: characters are compared by code point. JavaScript compares UTF-16 code units, which orders characters beyond U+FFFF differently from those in U+E000..U+FFFF.
- `Startup.ValidatedCacheIsConsistent`: covers only limits that convert to numbers. A limit that is NaN to the cache has no integer counterpart in the model.
- `Startup.ValidatedServerStaysWithinLimits`: covers only limits that convert to numbers, and only the intended numeric limit check. Under the check as written the bound fails (see Findings).
- `JsonConfig.EnsureInteger`: the thrown message omits the offending value.
- `JsonConfig.ValidateConfig`: the messages stand in for JavaScript's `TypeError`s. When `cache` is missing or null the error text differs.

## Findings

| source | as written | input that shows it | evidently intended | confidence | as-written member | corrected member |
|---|---|---|---|---|---|---|
| dist/memorycache.js:12-16 | `contains` calls `this.entries.hasOwnProperty` on a plain `{}`, whose own keys are client-chosen | PUT `/hasOwnProperty`, then GET `/hasOwnProperty`: the GET caches the fetched body under that key, the node shadows the method, and every later `contains` or `delete` throws a `TypeError` in the request handler | a lookup that no key can shadow (`Object.prototype.hasOwnProperty.call`, or a `Map`) | medium, not executed | `MemoryCache.ContainsAsWritten`, `MemoryCache.HasOwnPropertyKeyBreaksContains` | `MemoryCache.Contains` |
| dist/config.js:117 | `maxEntrySizeBytes > maxTotalSizeBytes` compares two string limits as text, while the cache compares them as numbers (`dist/memorycache.js:39`, `dist/memorycache.js:60`) | `cache: {enabled: true, maxEntrySizeBytes: "100", maxTotalSizeBytes: "20"}`: "100" > "20" is false as text, so the config is accepted, and a 50-byte GET body then sits in a cache whose total limit is 20 | compare the limits as numbers, so that an accepted configuration never has an entry limit above its total | medium, not executed | `JsonConfig.ValidateConfig`, `Startup.TextLimitsOverflowCache` | `JsonConfig.ValidateConfigNumeric`, `Startup.ValidatedServerStaysWithinLimits` |

=== FILE: buffers.dfy ===
/** Byte buffers as the server handles them: a Node `Buffer` is a sequence of bytes. */
module Buffers {
  newtype byte = x: int | 0 <= x < 256
  type Bytes = seq<byte>
}

=== FILE: circuit_breaker.dfy ===
/**
 * The circuit breaker of dist/server.js (`awsErrors`, `awsPaused`, `onAWSError`,
 * `onAWSSuccess` and the pause-timer callback). The timer itself is not modelled:
 * its expiry is the explicit event `Unpause`.
 */
module CircuitBreaker {

  /** `errors` counts consecutive remote-store failures; `paused` suppresses remote calls. */
  datatype Breaker = Breaker(errors: int, paused: bool)

  /** The state at server start: no errors, not paused. */
  const Closed: Breaker := Breaker(0, false)

  /**
   * `onAWSError`: one more consecutive failure. Reaching `errorsBeforePausing` pauses the
   * breaker; an error never unpauses it.
   */
  function OnError(b: Breaker, errorsBeforePausing: int): (r: Breaker)
    ensures r.errors == b.errors + 1
    ensures r.paused <==> b.paused || r.errors >= errorsBeforePausing
  {
    var errors := b.errors + 1;
    if errors >= errorsBeforePausing then Breaker(errors, true) else Breaker(errors, b.paused)
  }

  /** `onAWSSuccess`: resets the failure count but leaves `paused` as it is. */
  function OnSuccess(b: Breaker): (r: Breaker)
    ensures r.errors == 0
    ensures r.paused == b.paused
  {
    b.(errors := 0)
  }

  /** The pause-timer callback: resume remote access with a fresh count. */
  function Unpause(b: Breaker): (r: Breaker)
    ensures !r.paused && r.errors == 0
  {
    Closed
  }

  /** The breaker after `n` consecutive failures with no success in between. */
  function AfterErrors(b: Breaker, n: nat, errorsBeforePausing: int): Breaker
  {
    if n == 0 then b else OnError(AfterErrors(b, n - 1, errorsBeforePausing), errorsBeforePausing)
  }

  /**
   * `n` consecutive failures add `n` to the count, and the breaker is paused afterwards
   * exactly when it already was or the count reached the threshold at some point.
   */
  lemma {:induction false} ConsecutiveErrors(b: Breaker, n: nat, errorsBeforePausing: int)
    ensures AfterErrors(b, n, errorsBeforePausing).errors == b.errors + n
    ensures AfterErrors(b, n, errorsBeforePausing).paused <==>
      b.paused || (n > 0 && b.errors + n >= errorsBeforePausing)
  {
    if n > 0 {
      ConsecutiveErrors(b, n - 1, errorsBeforePausing);
    }
  }

  /**
   * From a closed breaker with threshold `t >= 1`, the `t`-th consecutive failure is the
   * first one that pauses it.
   */
  lemma PausesExactlyAtThreshold(n: nat, t: nat)
    requires t >= 1
    ensures AfterErrors(Closed, n, t).paused <==> n >= t
  {
    ConsecutiveErrors(Closed, n, t);
  }

  /** A success between failures starts the count again from zero. */
  lemma SuccessRestartsCount(b: Breaker, n: nat, t: nat)
    requires !b.paused && t >= 1
    ensures !AfterErrors(OnSuccess(b), n, t).paused <==> n < t
  {
    ConsecutiveErrors(OnSuccess(b), n, t);
  }
}

=== FILE: depfile.dfy ===
/**
 * The gcc dependency-file heuristic of dist/server.js (`isGccDepfile`): a fetched body is
 * treated as a depfile when it is at most 100000 bytes long and contains the bytes of the
 * string `.o: \` (a make rule for an object file followed by a line continuation).
 */
module Depfile {
  import opened Buffers

  /** The bytes of `.o: \` in ASCII. */
  const DepRule: Bytes := [0x2E, 0x6F, 0x3A, 0x20, 0x5C]

  const MaxDepfileLength: int := 100000

  /** `needle` occurs in `hay` starting at position `i`. */
  predicate OccursAt(hay: Bytes, needle: Bytes, i: int)
  {
    0 <= i && i + |needle| <= |hay| && hay[i..i + |needle|] == needle
  }

  /**
   * `Buffer.indexOf` from position `from`: the first occurrence at or after `from`, or -1
   * when there is none.
   */
  function IndexOfFrom(hay: Bytes, needle: Bytes, from: nat): (r: int)
    requires from <= |hay|
    ensures r == -1 || (from <= r && OccursAt(hay, needle, r))
    ensures r >= 0 ==> forall i :: from <= i < r ==> !OccursAt(hay, needle, i)
    ensures r == -1 ==> forall i :: from <= i ==> !OccursAt(hay, needle, i)
    decreases |hay| - from
  {
    if from + |needle| > |hay| then -1
    else if hay[from..from + |needle|] == needle then from
    else IndexOfFrom(hay, needle, from + 1)
  }

  /** `isGccDepfile`: short enough and containing the dependency-rule marker somewhere. */
  function IsGccDepfile(body: Bytes): (r: bool)
    ensures r <==> |body| <= MaxDepfileLength && exists i :: OccursAt(body, DepRule, i)
  {
    |body| <= MaxDepfileLength && IndexOfFrom(body, DepRule, 0) >= 0
  }

  /** A typical depfile line is recognised. */
  lemma RuleLineIsDepfile(prefix: Bytes, suffix: Bytes)
    requires |prefix| + 5 + |suffix| <= MaxDepfileLength
    ensures IsGccDepfile(prefix + DepRule + suffix)
  {
    var body := prefix + DepRule + suffix;
    assert body[|prefix|..|prefix| + 5] == DepRule;
    assert OccursAt(body, DepRule, |prefix|);
  }

  /** A body longer than the limit is never treated as a depfile, whatever it contains. */
  lemma LongBodyIsNotDepfile(body: Bytes)
    requires |body| > MaxDepfileLength
    ensures !IsGccDepfile(body)
  {
  }
}

=== FILE: error_policy.dfy ===
/**
 * Classification of remote-store errors in dist/server.js: which errors are hidden from
 * the caller, and which HTTP status a failed remote call turns into.
 */
module ErrorPolicy {
  import opened Results

  /** The status codes the server uses. */
  const OK: int := 200
  const Forbidden: int := 403
  const NotFound: int := 404
  const MethodNotAllowed: int := 405

  /**
   * An error from the remote-store client: `statusCode` is absent when no HTTP answer was
   * received, and `retryable` stands for `err.retryable === true`.
   */
  datatype RemoteError = RemoteError(statusCode: Option<int>, retryable: bool)

  /** `isIgnorableError`: the client marked the error retryable (typically: offline). */
  function IsIgnorableError(err: RemoteError): (r: bool)
    ensures r <==> err.retryable
  {
    err.retryable
  }

  /** `shouldIgnoreError`: hidden exactly when offline operation is allowed and the error is retryable. */
  function ShouldIgnoreError(allowOffline: bool, err: RemoteError): (r: bool)
    ensures r <==> allowOffline && err.retryable
  {
    allowOffline && IsIgnorableError(err)
  }

  /**
   * `getHttpResponseStatusCode`: an ignored error yields `codeIfIgnoringError`; otherwise the
   * error's own status code, with 404 standing in for an absent or zero code.
   */
  function StatusFor(allowOffline: bool, err: RemoteError, codeIfIgnoringError: int): (r: int)
    ensures ShouldIgnoreError(allowOffline, err) ==> r == codeIfIgnoringError
    ensures !ShouldIgnoreError(allowOffline, err) && err.statusCode.Some? && err.statusCode.value != 0 ==>
      r == err.statusCode.value
    ensures !ShouldIgnoreError(allowOffline, err) && (err.statusCode == None || err.statusCode == Some(0)) ==>
      r == NotFound
  {
    if ShouldIgnoreError(allowOffline, err) then codeIfIgnoringError
    else
      match err.statusCode
      case Some(code) => if code != 0 then code else NotFound
      case None => NotFound
  }

  /** The `||` fallback guarantees a real status: the result is never 0 when the ignore code is not. */
  lemma StatusIsNeverZero(allowOffline: bool, err: RemoteError, codeIfIgnoringError: int)
    requires codeIfIgnoringError != 0
    ensures StatusFor(allowOffline, err, codeIfIgnoringError) != 0
  {
  }

  /** With offline operation disallowed, the ignore code plays no part. */
  lemma StrictModeIgnoresNothing(err: RemoteError, a: int, b: int)
    ensures StatusFor(false, err, a) == StatusFor(false, err, b)
  {
  }
}

=== FILE: json_config.dfy ===
/**
 * The configuration logic of dist/config.js: the deep `merge` of JSON-like sources,
 * `ensureInteger`, `validateConfig`, and the leading-`~` expansion `getConfig` applies to the
 * two path settings. Reading and parsing the files is not modelled: the parsed sources are
 * the inputs, and the home directory is a parameter.
 */
module JsonConfig {
  import opened Results

  /** A JSON-like value. Numbers are integers; arrays do not occur in the configuration. */
  datatype Json =
    | JNull
    | JBool(b: bool)
    | JNum(n: int)
    | JStr(s: string)
    | JObj(fields: map<string, Json>)

  type Object = map<string, Json>

  /** The leaf rewrite of `merge`: the strings "true" and "false" become booleans. */
  function Coerce(v: Json): (r: Json)
    ensures v == JStr("true") ==> r == JBool(true)
    ensures v == JStr("false") ==> r == JBool(false)
    ensures v != JStr("true") && v != JStr("false") ==> r == v
  {
    if v == JStr("true") then JBool(true)
    else if v == JStr("false") then JBool(false)
    else v
  }

  /** A value `merge` can produce: no leaf is the string "true" or "false", at any depth. */
  predicate Normal(v: Json)
    decreases v
  {
    match v
    case JStr(s) => s != "true" && s != "false"
    case JObj(f) => NormalObject(f)
    case _ => true
  }

  predicate NormalObject(f: Object)
    decreases JObj(f), 0
  {
    forall k :: k in f ==> Normal(f[k])
  }

  /** JavaScript truthiness; `None` is `undefined`. */
  predicate Truthy(v: Option<Json>)
  {
    match v
    case None => false
    case Some(JNull) => false
    case Some(JBool(b)) => b
    case Some(JNum(n)) => n != 0
    case Some(JStr(s)) => s != ""
    case Some(JObj(_)) => true
  }

  function DigitChar(d: nat): (c: char)
    requires d < 10
  {
    "0123456789"[d]
  }

  predicate IsDigit(c: char)
  {
    '0' <= c <= '9'
  }

  predicate AllDigits(s: string)
  {
    forall i :: 0 <= i < |s| ==> IsDigit(s[i])
  }

  /** The decimal value of a digit string (what `parseInt` yields for one). */
  function DigitsValue(s: string): (n: nat)
    requires AllDigits(s)
  {
    if |s| == 0 then 0
    else DigitsValue(s[..|s| - 1]) * 10 + (s[|s| - 1] as int - '0' as int)
  }

  /** The decimal representation of `n`, without leading zeros. */
  function ShowNat(n: nat): (s: string)
    ensures |s| > 0 && AllDigits(s)
  {
    if n < 10 then [DigitChar(n)] else ShowNat(n / 10) + [DigitChar(n % 10)]
  }

  /** Reading back the decimal representation gives the number. */
  lemma {:induction false} ShowNatRoundTrip(n: nat)
    ensures DigitsValue(ShowNat(n)) == n
  {
    var s := ShowNat(n);
    if n >= 10 {
      ShowNatRoundTrip(n / 10);
      assert s[..|s| - 1] == ShowNat(n / 10);
    }
  }

  lemma ShowNatInjective()
    ensures forall a: nat, b: nat :: ShowNat(a) == ShowNat(b) ==> a == b
  {
    forall a: nat, b: nat | ShowNat(a) == ShowNat(b)
      ensures a == b
    {
      ShowNatRoundTrip(a);
      ShowNatRoundTrip(b);
    }
  }

  /** `Object.keys` of a string: its indices, each mapped to a one-character string. */
  function StringAsObject(s: string): (f: Object)
    ensures forall i :: 0 <= i < |s| ==> ShowNat(i) in f && f[ShowNat(i)] == JStr([s[i]])
  {
    if |s| == 0 then map[]
    else
      var n := |s| - 1;
      var f := StringAsObject(s[..n]);
      ShowNatInjective();
      f[ShowNat(n) := JStr([s[n]])]
  }

  /**
   * What `merge(target[key] || {}, value)` starts from: the enumerable own properties of the
   * current value when it is truthy (an object's fields, a string's characters, nothing for
   * `true` or a non-zero number), and the empty object otherwise.
   */
  function BaseOf(current: Option<Json>): (f: Object)
    ensures current.Some? && current.value.JObj? ==> f == current.value.fields
    ensures !Truthy(current) ==> f == map[]
  {
    if !Truthy(current) then map[]
    else match current.value
      case JObj(f) => f
      case JStr(s) => StringAsObject(s)
      case _ => map[]
  }

  /** `merge({}, v)`'s view of one value: objects are copied field by field, leaves coerced. */
  function Copy(v: Json): (r: Json)
    ensures Normal(r)
    ensures v.JObj? <==> r.JObj?
    decreases v, 1
  {
    match v
    case JObj(f) => JObj(CopyObject(f))
    case _ => Coerce(v)
  }

  function CopyObject(f: Object): (r: Object)
    ensures r.Keys == f.Keys
    ensures forall k :: k in r ==> Normal(r[k])
    decreases JObj(f), 0
  {
    map k | k in f :: Copy(f[k])
  }

  /**
   * One pass of `Object.keys(source).forEach` onto `target`: keys the source lacks keep their
   * value, and every key the source has gets `MergeValue` of its current value and the
   * source's value.
   */
  function MergeInto(target: Object, source: Object): (r: Object)
    ensures r.Keys == target.Keys + source.Keys
    ensures forall k :: k in target && k !in source ==> r[k] == target[k]
    ensures forall k :: k in source && !source[k].JObj? ==> r[k] == Coerce(source[k])
    decreases JObj(source), 0
  {
    map k | k in target.Keys + source.Keys ::
      if k !in source then target[k] else MergeValue(Get(target, k), source[k])
  }

  /**
   * The new value of one key: an object is merged recursively onto what the key held
   * (`merge(target[key] || {}, value)`); a leaf is coerced and replaces it.
   */
  function MergeValue(current: Option<Json>, v: Json): (r: Json)
    ensures v.JObj? <==> r.JObj?
    ensures !v.JObj? ==> r == Coerce(v)
    ensures v.JObj? ==> r.fields.Keys == BaseOf(current).Keys + v.fields.Keys
    decreases v, 1
  {
    match v
    case JObj(g) => JObj(MergeInto(CopyObject(BaseOf(current)), g))
    case _ => Coerce(v)
  }

  /** `merge(...sources)`: every source in turn onto an initially empty target. */
  function Merge(sources: seq<Object>): (r: Object)
    ensures |sources| == 0 ==> r == map[]
  {
    if |sources| == 0 then map[]
    else MergeInto(Merge(sources[..|sources| - 1]), sources[|sources| - 1])
  }

  /** A key is in the merge result exactly when some source defines it. */
  lemma {:induction false} MergeKeys(sources: seq<Object>)
    ensures forall k :: k in Merge(sources) <==> exists i :: 0 <= i < |sources| && k in sources[i]
  {
    if |sources| > 0 {
      var prefix := sources[..|sources| - 1];
      MergeKeys(prefix);
      assert forall i :: 0 <= i < |prefix| ==> prefix[i] == sources[i];
    }
  }

  /** Copying a value `merge` could have produced changes nothing. */
  lemma {:induction false} CopyNormal(v: Json)
    requires Normal(v)
    ensures Copy(v) == v
    decreases v
  {
    match v
    case JObj(f) =>
      forall k | k in f
        ensures Copy(f[k]) == f[k]
      {
        CopyNormal(f[k]);
      }
      assert CopyObject(f) == f;
    case _ =>
  }

  /** Merging an object onto the empty object is a copy of it: `merge({}, x)` copies `x`. */
  lemma {:induction false} MergeOntoEmpty(source: Object)
    ensures MergeInto(map[], source) == CopyObject(source)
    decreases JObj(source), 0
  {
    forall k | k in source
      ensures MergeInto(map[], source)[k] == Copy(source[k])
    {
      MergeValueOntoNothing(source[k]);
    }
  }

  lemma {:induction false} MergeValueOntoNothing(v: Json)
    ensures MergeValue(None, v) == Copy(v)
    decreases v, 1
  {
    match v
    case JObj(g) =>
      MergeOntoEmpty(g);
      assert CopyObject(map[]) == map[];
    case _ =>
  }

  /** Every value of a merge result is normal: no "true"/"false" string survives. */
  lemma {:induction false} MergeIntoNormal(target: Object, source: Object)
    requires forall k :: k in target ==> Normal(target[k])
    ensures forall k :: k in MergeInto(target, source) ==> Normal(MergeInto(target, source)[k])
    decreases JObj(source), 0
  {
    var r := MergeInto(target, source);
    forall k | k in r
      ensures Normal(r[k])
    {
      if k in source {
        MergeValueNormal(Get(target, k), source[k]);
      }
    }
  }

  lemma {:induction false} MergeValueNormal(current: Option<Json>, v: Json)
    ensures Normal(MergeValue(current, v))
    decreases v, 1
  {
    match v
    case JObj(g) =>
      var m := MergeInto(CopyObject(BaseOf(current)), g);
      MergeIntoNormal(CopyObject(BaseOf(current)), g);
      assert NormalObject(m);
    case _ =>
  }

  lemma {:induction false} MergeNormal(sources: seq<Object>)
    ensures forall k :: k in Merge(sources) ==> Normal(Merge(sources)[k])
  {
    if |sources| > 0 {
      MergeNormal(sources[..|sources| - 1]);
      MergeIntoNormal(Merge(sources[..|sources| - 1]), sources[|sources| - 1]);
    }
  }

  /**
   * For a key whose last definition is a leaf, the merged value is that leaf (coerced):
   * later sources override earlier ones.
   */
  lemma {:induction false} LastLeafWins(sources: seq<Object>, i: nat, k: string)
    requires i < |sources| && k in sources[i] && !sources[i][k].JObj?
    requires forall j :: i < j < |sources| ==> k !in sources[j]
    ensures k in Merge(sources) && Merge(sources)[k] == Coerce(sources[i][k])
  {
    var n := |sources|;
    if i < n - 1 {
      var prefix := sources[..n - 1];
      LastLeafWins(prefix, i, k);
    }
  }

  /**
   * Overriding one field of a nested object keeps its siblings: when both the target and the
   * source hold an object under `k`, every field the source does not mention keeps its value.
   */
  lemma NestedOverrideKeepsSiblings(target: Object, source: Object, k: string, field: string)
    requires k in target && target[k].JObj? && Normal(target[k])
    requires k in source && source[k].JObj?
    requires field in target[k].fields && field !in source[k].fields
    ensures MergeInto(target, source)[k].JObj?
    ensures field in MergeInto(target, source)[k].fields
    ensures MergeInto(target, source)[k].fields[field] == target[k].fields[field]
  {
    CopyNormal(target[k]);
  }

  /** Merging a source a second time changes nothing. */
  lemma {:induction false} MergeIntoIdempotent(source: Object)
    ensures MergeInto(CopyObject(source), source) == CopyObject(source)
    decreases JObj(source), 0
  {
    var c := CopyObject(source);
    forall k | k in source
      ensures MergeInto(c, source)[k] == c[k]
    {
      MergeValueIdempotent(source[k]);
    }
  }

  lemma {:induction false} MergeValueIdempotent(v: Json)
    ensures MergeValue(Some(Copy(v)), v) == Copy(v)
    decreases v, 1
  {
    match v
    case JObj(g) =>
      var cg := CopyObject(g);
      CopyNormal(JObj(cg));
      assert BaseOf(Some(Copy(v))) == cg;
      MergeIntoIdempotent(g);
    case _ =>
  }

  lemma MergeTwiceIsMergeOnce(source: Object)
    ensures Merge([source, source]) == Merge([source])
  {
    assert [source, source][..1] == [source];
    assert [source][..0] == [];
    MergeOntoEmpty(source);
    MergeIntoIdempotent(source);
  }

  /** The message `ensureInteger` throws. */
  function NotAnInteger(name: string): string
  {
    "Expected '" + name + "' to be an integer"
  }

  /**
   * `ensureInteger`: a non-empty string of ASCII digits gives its decimal value, a number is
   * returned as it is, and anything else (another string, a boolean, null, an object, a
   * missing value) is an error.
   */
  function EnsureInteger(name: string, value: Option<Json>): (r: Result<int>)
    ensures r.Ok? <==>
      value.Some? && (value.value.JNum? || (value.value.JStr? && |value.value.s| > 0 && AllDigits(value.value.s)))
    ensures r.Ok? && value.value.JNum? ==> r.value == value.value.n
    ensures r.Ok? && value.value.JStr? ==> r.value == DigitsValue(value.value.s) && r.value >= 0
  {
    match value
    case Some(JStr(s)) =>
      if |s| > 0 && AllDigits(s) then Ok(DigitsValue(s)) else Err(NotAnInteger(name))
    case Some(JNum(n)) => Ok(n)
    case _ => Err(NotAnInteger(name))
  }

  /** Every natural number written in decimal passes `ensureInteger` with its own value. */
  lemma EnsureIntegerReadsDecimal(name: string, n: nat)
    ensures EnsureInteger(name, Some(JStr(ShowNat(n)))) == Ok(n)
  {
    ShowNatRoundTrip(n);
  }

  /**
   * The JavaScript `ToNumber` of a primitive compared with `>`: `None` is NaN. Digit strings
   * are read as decimals, the empty string is 0, and other strings are NaN.
   */
  function ToNumber(v: Option<Json>): (r: Option<int>)
    ensures v.Some? && v.value.JNum? ==> r == Some(v.value.n)
    ensures v == None || (v.Some? && v.value.JObj?) ==> r == None
  {
    match v
    case None => None
    case Some(JNull) => Some(0)
    case Some(JBool(b)) => Some(if b then 1 else 0)
    case Some(JNum(n)) => Some(n)
    case Some(JStr(s)) => if AllDigits(s) then Some(DigitsValue(s)) else None
    case Some(JObj(_)) => None
  }

  /** `ToPrimitive` of a plain object is the text "[object Object]"; other values are primitives. */
  function ToPrimitive(v: Option<Json>): (r: Option<Json>)
    ensures r.Some? ==> !r.value.JObj?
    ensures v.Some? && !v.value.JObj? ==> r == v
  {
    if v.Some? && v.value.JObj? then Some(JStr("[object Object]")) else v
  }

  /** `a > b` on two strings in JavaScript: the first differing character decides, and a proper prefix is smaller. */
  predicate TextGreater(a: string, b: string)
    decreases |a|
  {
    |a| > 0 && (|b| == 0 || a[0] > b[0] || (a[0] == b[0] && TextGreater(a[1..], b[1..])))
  }

  /** `>` on two numbers, NaN (`None`) comparing false. */
  predicate NumberGreater(a: Option<int>, b: Option<int>)
  {
    a.Some? && b.Some? && a.value > b.value
  }

  /**
   * `a > b` in JavaScript: both operands become primitives; two strings are compared as
   * text, anything else as numbers.
   */
  function GreaterThan(a: Option<Json>, b: Option<Json>): (r: bool)
    ensures a.Some? && a.value.JStr? && b.Some? && b.value.JStr? ==> (r <==> TextGreater(a.value.s, b.value.s))
    ensures !(a.Some? && a.value.JObj?) && !(b.Some? && b.value.JObj?) && !(a.Some? && a.value.JStr? && b.Some? && b.value.JStr?) ==>
      (r <==> NumberGreater(ToNumber(a), ToNumber(b)))
    ensures a.Some? && a.value.JNum? && b.Some? && b.value.JNum? ==> (r <==> a.value.n > b.value.n)
    ensures a == None || b == None ==> !r
  {
    if a.Some? && a.value.JStr? && b.Some? && b.value.JStr? then TextGreater(a.value.s, b.value.s)
    else
      var pa, pb := ToPrimitive(a), ToPrimitive(b);
      if pa.Some? && pa.value.JStr? && pb.Some? && pb.value.JStr? then TextGreater(pa.value.s, pb.value.s)
      else NumberGreater(ToNumber(pa), ToNumber(pb))
  }

  function Get(config: Object, key: string): Option<Json>
  {
    if key in config then Some(config[key]) else None
  }

  /**
   * The check of `config.cache.maxEntrySizeBytes > config.cache.maxTotalSizeBytes` as the
   * code writes it, with JavaScript's `>`. A non-object `cache` has neither field, so the
   * comparison is false.
   */
  predicate CacheLimitsInverted(cache: Json)
  {
    cache.JObj? && GreaterThan(Get(cache.fields, "maxEntrySizeBytes"), Get(cache.fields, "maxTotalSizeBytes"))
  }

  /** The same check on the limits read as numbers, which is how the cache itself compares them. */
  predicate CacheLimitsInvertedAsNumbers(cache: Json)
  {
    cache.JObj? && NumberGreater(ToNumber(Get(cache.fields, "maxEntrySizeBytes")), ToNumber(Get(cache.fields, "maxTotalSizeBytes")))
  }

  /** Both limits are compared as text: each is a string, or an object whose primitive is one. */
  predicate LimitsComparedAsText(cache: Json)
  {
    && cache.JObj?
    && (var e, t := ToPrimitive(Get(cache.fields, "maxEntrySizeBytes")), ToPrimitive(Get(cache.fields, "maxTotalSizeBytes"));
        e.Some? && e.value.JStr? && t.Some? && t.value.JStr?)
  }

  /** The two comparisons differ only where JavaScript compares text. */
  lemma NumericLimitsCompareAlike(cache: Json)
    requires !LimitsComparedAsText(cache)
    ensures CacheLimitsInverted(cache) <==> CacheLimitsInvertedAsNumbers(cache)
  {
    if cache.JObj? {
      var e, t := Get(cache.fields, "maxEntrySizeBytes"), Get(cache.fields, "maxTotalSizeBytes");
      assert ToNumber(ToPrimitive(e)) == ToNumber(e);
      assert ToNumber(ToPrimitive(t)) == ToNumber(t);
    }
  }

  /** `String(v)` as string concatenation writes a configuration value. */
  function Show(v: Option<Json>): (s: string)
    ensures v.Some? && v.value.JStr? ==> s == v.value.s
    ensures v.Some? && v.value.JNum? && v.value.n >= 0 ==> AllDigits(s) && DigitsValue(s) == v.value.n
  {
    match v
    case None => "undefined"
    case Some(JNull) => "null"
    case Some(JBool(b)) => if b then "true" else "false"
    case Some(JNum(n)) => ShowNatRoundTrip(if n < 0 then -n else n); if n < 0 then "-" + ShowNat(-n) else ShowNat(n)
    case Some(JStr(s)) => s
    case Some(JObj(_)) => "[object Object]"
  }

  const BucketRequired: string := "S3 bucket is required, e.g. 'bazels3cache --bucket=<bucketname>'"
  const PortOutOfRange: string := "Port must be in the range 1024..65535"
  const NoCacheSettings: string := "Cannot read properties of the cache settings"

  /** The message for inverted limits, with both values as JavaScript prints them. */
  function LimitsMessage(entry: Option<Json>, total: Option<Json>): string
  {
    "max entry size (" + Show(entry) + ") must be <= max total size (" + Show(total) + ")"
  }

  /** `merge(a, b)` is `b` merged onto a copy of `a`. */
  lemma MergeOfTwo(a: Object, b: Object)
    ensures Merge([a, b]) == MergeInto(CopyObject(a), b)
  {
    assert [a, b][..1] == [a];
    assert [a][..0] == [];
    MergeOntoEmpty(a);
  }

  /** `merge(config, { port: p })` is the normalised config with `port` replaced by the number `p`. */
  lemma MergeWithPort(config: Object, port: int)
    ensures Merge([config, map["port" := JNum(port)]]) == CopyObject(config)["port" := JNum(port)]
  {
    MergeOfTwo(config, map["port" := JNum(port)]);
  }

  /** `merge(config, { port: port })`. */
  function WithPort(config: Object, port: int): (r: Object)
    ensures r == CopyObject(config)["port" := JNum(port)]
  {
    MergeWithPort(config, port);
    Merge([config, map["port" := JNum(port)]])
  }

  /** The limit check: as the code writes it, or on the limits read as numbers. */
  predicate LimitsInverted(cache: Json, asNumbers: bool)
  {
    if asNumbers then CacheLimitsInvertedAsNumbers(cache) else CacheLimitsInverted(cache)
  }

  /**
   * The steps of `validateConfig`, with the limit check chosen by `asNumbers`. Reading the
   * limits of a missing or null `cache` is a type error.
   */
  function Validate(config: Object, asNumbers: bool): (r: Result<Object>)
    ensures r.Ok? <==>
      && Truthy(Get(config, "bucket"))
      && EnsureInteger("port", Get(config, "port")).Ok?
      && 1024 <= EnsureInteger("port", Get(config, "port")).value <= 65535
      && "cache" in config && config["cache"] != JNull
      && !LimitsInverted(Copy(config["cache"]), asNumbers)
    ensures !Truthy(Get(config, "bucket")) ==> r == Err(BucketRequired)
    ensures r.Ok? ==> r.value == CopyObject(config)["port" := JNum(EnsureInteger("port", Get(config, "port")).value)]
  {
    if !Truthy(Get(config, "bucket")) then Err(BucketRequired)
    else
      match EnsureInteger("port", Get(config, "port"))
      case Err(msg) => Err(msg)
      case Ok(port) =>
        var merged := WithPort(config, port);
        var cache := Get(merged, "cache");
        assert cache == if "cache" in config then Some(Copy(config["cache"])) else None;
        assert cache.Some? ==> (cache.value == JNull <==> config["cache"] == JNull);
        if port < 1024 || port > 65535 then Err(PortOutOfRange)
        else if cache == None || cache.value == JNull then Err(NoCacheSettings)
        else if LimitsInverted(cache.value, asNumbers) then
          Err(LimitsMessage(Get(cache.value.fields, "maxEntrySizeBytes"), Get(cache.value.fields, "maxTotalSizeBytes")))
        else Ok(merged)
  }

  /**
   * `validateConfig` as written: a truthy bucket is required, the port must be an integer in
   * 1024..65535 and is written back as a number, and the cache's entry limit must not exceed
   * its total limit under JavaScript's `>`. What it returns is the input as `merge`
   * normalises it, with only `port` replaced.
   */
  function ValidateConfig(config: Object): (r: Result<Object>)
    ensures r.Ok? <==>
      && Truthy(Get(config, "bucket"))
      && EnsureInteger("port", Get(config, "port")).Ok?
      && 1024 <= EnsureInteger("port", Get(config, "port")).value <= 65535
      && "cache" in config && config["cache"] != JNull
      && !CacheLimitsInverted(Copy(config["cache"]))
    ensures !Truthy(Get(config, "bucket")) ==> r == Err(BucketRequired)
    ensures r.Ok? ==> r.value == CopyObject(config)["port" := JNum(EnsureInteger("port", Get(config, "port")).value)]
  {
    Validate(config, false)
  }

  /**
   * `validateConfig` with the limit check it evidently intends: the limits compared as the
   * numbers the cache reads them as. Everything else is as written.
   */
  function ValidateConfigNumeric(config: Object): (r: Result<Object>)
    ensures r.Ok? <==>
      && Truthy(Get(config, "bucket"))
      && EnsureInteger("port", Get(config, "port")).Ok?
      && 1024 <= EnsureInteger("port", Get(config, "port")).value <= 65535
      && "cache" in config && config["cache"] != JNull
      && !CacheLimitsInvertedAsNumbers(Copy(config["cache"]))
    ensures !Truthy(Get(config, "bucket")) ==> r == Err(BucketRequired)
    ensures r.Ok? ==> r.value == CopyObject(config)["port" := JNum(EnsureInteger("port", Get(config, "port")).value)]
  {
    Validate(config, true)
  }

  /** Unless both limits are compared as text, the written and the intended check agree. */
  lemma ValidationsAgreeOnNumbers(config: Object)
    requires "cache" in config && !LimitsComparedAsText(Copy(config["cache"]))
    ensures ValidateConfig(config) == ValidateConfigNumeric(config)
  {
    NumericLimitsCompareAlike(Copy(config["cache"]));
  }

  /** A configuration whose two cache limits are the strings "100" and "20". */
  function TextLimitsConfig(): Object
  {
    map["bucket" := JStr("b"), "port" := JNum(8080),
        "cache" := JObj(map["enabled" := JBool(true), "maxEntrySizeBytes" := JStr("100"), "maxTotalSizeBytes" := JStr("20")])]
  }

  /**
   * The code as written accepts an entry limit of "100" above a total limit of "20", because
   * "100" > "20" is false as text; the intended check rejects it.
   */
  lemma TextComparisonAcceptsInvertedLimits()
    ensures ValidateConfig(TextLimitsConfig()).Ok?
    ensures ValidateConfigNumeric(TextLimitsConfig()).Err?
    ensures ValidateConfig(TextLimitsConfig()).value["cache"] == TextLimitsConfig()["cache"]
    ensures AllDigits("100") && AllDigits("20") && DigitsValue("100") == 100 && DigitsValue("20") == 20
  {
    var config := TextLimitsConfig();
    var c := config["cache"];
    var entry, total := Get(c.fields, "maxEntrySizeBytes"), Get(c.fields, "maxTotalSizeBytes");
    assert Normal(c) by {
      assert forall k :: k in c.fields ==> Normal(c.fields[k]);
    }
    CopyNormal(c);
    assert !TextGreater("100", "20") by {
      assert "100"[0] < "20"[0];
    }
    assert !CacheLimitsInverted(c);
    assert DigitsValue("100") == 100 && DigitsValue("20") == 20 by {
      assert "100"[..2] == "10" && "10"[..1] == "1" && "20"[..1] == "2";
      assert "1"[..0] == "" && "2"[..0] == "";
    }
    assert CacheLimitsInvertedAsNumbers(c) by {
      assert AllDigits("100") && AllDigits("20");
      assert ToNumber(entry) == Some(100) && ToNumber(total) == Some(20);
    }
    assert EnsureInteger("port", Get(config, "port")) == Ok(8080);
  }

  /** A validated configuration has the port as a number in range. */
  lemma ValidatedPortInRange(config: Object)
    requires ValidateConfig(config).Ok?
    ensures "port" in ValidateConfig(config).value
    ensures var p := ValidateConfig(config).value["port"]; p.JNum? && 1024 <= p.n <= 65535
  {
  }

  /** The `replace(/^~/, home)` of `getConfig`: only a leading `~` is replaced. */
  function ExpandTilde(path: string, home: string): (r: string)
    ensures |path| > 0 && path[0] == '~' ==> r == home + path[1..]
    ensures (|path| == 0 || path[0] != '~') ==> r == path
  {
    if |path| > 0 && path[0] == '~' then home + path[1..] else path
  }

  /** Expanding twice is expanding once, unless the home directory itself starts with `~`. */
  lemma ExpandTildeIdempotent(path: string, home: string)
    requires |home| == 0 || home[0] != '~'
    requires |home| == 0 ==> |path| < 2 || path[1] != '~'
    ensures ExpandTilde(ExpandTilde(path, home), home) == ExpandTilde(path, home)
  {
  }

  /** The messages of the type errors `getConfig` runs into on a missing path setting. */
  const MissingPath: string := "Cannot read the path settings"

  /** `config[section][field]` is a string. */
  predicate HasPath(config: Object, section: string, field: string)
  {
    section in config && config[section].JObj? && field in config[section].fields && config[section].fields[field].JStr?
  }

  /** Replaces a leading `~` in the string at `section.field`. */
  function ExpandSetting(config: Object, section: string, field: string, home: string): (r: Result<Object>)
    ensures r.Ok? <==> HasPath(config, section, field)
    ensures r.Ok? ==> r.value.Keys == config.Keys
    ensures r.Ok? ==> (r.value[section].JObj?
      && r.value[section].fields == config[section].fields[field := JStr(ExpandTilde(config[section].fields[field].s, home))])
    ensures r.Ok? ==> forall k :: k in config && k != section ==> r.value[k] == config[k]
  {
    if section in config && config[section].JObj? && field in config[section].fields && config[section].fields[field].JStr? then
      var f := config[section].fields;
      Ok(config[section := JObj(f[field := JStr(ExpandTilde(f[field].s, home))])])
    else Err(MissingPath)
  }

  /**
   * `getConfig` after the files are read: defaults, user file, `--config` file and the
   * remaining command-line arguments merged in that order, then the staging directory and
   * the log file expanded.
   */
  function GetConfig(defaults: Object, user: Object, commandLine: Object, args: Object, home: string): (r: Result<Object>)
    ensures var m := Merge([defaults, user, commandLine, args]);
      r.Ok? <==> HasPath(m, "asyncUpload", "cacheDir") && HasPath(m, "logging", "file")
    ensures r.Ok? ==> r.value.Keys == Merge([defaults, user, commandLine, args]).Keys
    ensures r.Ok? ==>
      var m := Merge([defaults, user, commandLine, args]);
      var upload, logging := m["asyncUpload"].fields, m["logging"].fields;
      && r.value["asyncUpload"] == JObj(upload["cacheDir" := JStr(ExpandTilde(upload["cacheDir"].s, home))])
      && r.value["logging"] == JObj(logging["file" := JStr(ExpandTilde(logging["file"].s, home))])
      && forall k :: k in m && k != "asyncUpload" && k != "logging" ==> r.value[k] == m[k]
  {
    var merged := Merge([defaults, user, commandLine, args]);
    match ExpandSetting(merged, "asyncUpload", "cacheDir", home)
    case Err(msg) => Err(msg)
    case Ok(c) => ExpandSetting(c, "logging", "file", home)
  }

  /** After `getConfig`, neither path setting starts with `~` when the home directory does not. */
  lemma GetConfigExpandsPaths(defaults: Object, user: Object, commandLine: Object, args: Object, home: string)
    requires |home| > 0 && home[0] != '~'
    requires GetConfig(defaults, user, commandLine, args, home).Ok?
    ensures var c := GetConfig(defaults, user, commandLine, args, home).value;
      && c["asyncUpload"].JObj? && c["asyncUpload"].fields["cacheDir"].JStr?
      && c["logging"].JObj? && c["logging"].fields["file"].JStr?
      && (|c["asyncUpload"].fields["cacheDir"].s| == 0 || c["asyncUpload"].fields["cacheDir"].s[0] != '~')
      && (|c["logging"].fields["file"].s| == 0 || c["logging"].fields["file"].s[0] != '~')
  {
  }
}

=== FILE: memory_cache.dfy ===
/**
 * The size-aware LRU cache of dist/memorycache.js.
 *
 * The source keeps a key -> node map, a doubly linked recency list (head is the
 * newest entry, tail the oldest) and a running byte total. Here the list is the
 * sequence `order` (index 0 is the head, the last index the tail) and the map
 * holds the buffers directly.
 */
module MemoryCache {
  import opened Results
  import opened Buffers

  type Key = string

  /** The `cache` section of the configuration: `enabled`, `maxEntrySizeBytes`, `maxTotalSizeBytes`. */
  datatype CacheConfig = CacheConfig(enabled: bool, maxEntrySizeBytes: int, maxTotalSizeBytes: int)

  /** `entries` maps each resident key to its buffer, `order` is the recency list, `size` the byte total. */
  datatype Cache = Cache(entries: map<Key, Bytes>, order: seq<Key>, size: int)

  /** Byte length of the buffer stored under `k`, or 0 when `k` is not resident. */
  function EntryBytes(entries: map<Key, Bytes>, k: Key): nat
  {
    if k in entries then |entries[k]| else 0
  }

  /** Sum of the byte lengths of the keys in `order`, accumulated from the head towards the tail. */
  function TotalBytes(order: seq<Key>, entries: map<Key, Bytes>): nat
  {
    if |order| == 0 then 0
    else TotalBytes(order[..|order| - 1], entries) + EntryBytes(entries, order[|order| - 1])
  }

  predicate Distinct(s: seq<Key>)
  {
    forall i, j :: 0 <= i < j < |s| ==> s[i] != s[j]
  }

  /**
   * The structural invariant: the recency list holds exactly the resident keys, each once,
   * and `size` is the sum of the resident buffers' byte lengths.
   */
  predicate WellFormed(c: Cache)
  {
    && Distinct(c.order)
    && (forall k :: k in c.order ==> k in c.entries)
    && (forall k :: k in c.entries ==> k in c.order)
    && c.size == TotalBytes(c.order, c.entries)
  }

  /** The loop guard of `_makeSpace`, negated: eviction stops once this holds. */
  predicate Fits(cfg: CacheConfig, size: int, newItemLength: int)
  {
    size <= 0 || size + newItemLength <= cfg.maxTotalSizeBytes
  }

  /**
   * The capacity invariant: a disabled cache stays empty, a non-empty cache is within
   * `maxTotalSizeBytes`, and no resident buffer reaches `maxEntrySizeBytes`.
   */
  predicate Bounded(cfg: CacheConfig, c: Cache)
  {
    && (cfg.enabled || c.entries == map[])
    && (c.entries == map[] || c.size <= cfg.maxTotalSizeBytes)
    && (forall k :: k in c.entries ==> |c.entries[k]| < cfg.maxEntrySizeBytes)
  }

  /** The freshly constructed cache. */
  function EmptyCache(): (c: Cache)
    ensures WellFormed(c)
    ensures forall cfg :: Bounded(cfg, c)
    ensures forall k :: k !in c.entries
  {
    Cache(map[], [], 0)
  }

  lemma {:induction false} TotalBytesAppend(a: seq<Key>, b: seq<Key>, m: map<Key, Bytes>)
    ensures TotalBytes(a + b, m) == TotalBytes(a, m) + TotalBytes(b, m)
    decreases |b|
  {
    if |b| == 0 {
      assert a + b == a;
    } else {
      var b' := b[..|b| - 1];
      assert (a + b)[..|a + b| - 1] == a + b';
      TotalBytesAppend(a, b', m);
    }
  }

  /** The total only depends on the buffers of the keys it sums over. */
  lemma {:induction false} TotalBytesFrame(s: seq<Key>, m1: map<Key, Bytes>, m2: map<Key, Bytes>)
    requires forall k :: k in s ==> EntryBytes(m1, k) == EntryBytes(m2, k)
    ensures TotalBytes(s, m1) == TotalBytes(s, m2)
  {
    if |s| > 0 {
      var s' := s[..|s| - 1];
      assert forall k :: k in s' ==> k in s;
      TotalBytesFrame(s', m1, m2);
    }
  }

  /** Position of `k` in the recency list. */
  function IndexOf(s: seq<Key>, k: Key): (i: nat)
    requires k in s
    ensures i < |s| && s[i] == k
    ensures forall j :: 0 <= j < i ==> s[j] != k
  {
    if s[0] == k then 0 else 1 + IndexOf(s[1..], k)
  }

  /** The recency list with the node of `k` unlinked (the relinking done by `_deleteNode`). */
  function Without(s: seq<Key>, k: Key): seq<Key>
  {
    if k in s then
      var i := IndexOf(s, k);
      s[..i] + s[i + 1..]
    else s
  }

  lemma WithoutFacts(s: seq<Key>, k: Key, m: map<Key, Bytes>)
    requires Distinct(s)
    ensures Distinct(Without(s, k))
    ensures forall x :: x in Without(s, k) <==> x in s && x != k
    ensures k in s ==> |Without(s, k)| == |s| - 1
    ensures k in s ==> TotalBytes(Without(s, k), m) == TotalBytes(s, m) - EntryBytes(m, k)
  {
    if k in s {
      var i := IndexOf(s, k);
      SpliceMembers(s, i);
      SpliceDistinct(s, i);
      SpliceTotal(s, i, m);
    }
  }

  lemma SpliceMembers(s: seq<Key>, i: nat)
    requires Distinct(s) && i < |s|
    ensures forall x :: x in s[..i] + s[i + 1..] <==> x in s && x != s[i]
  {
    var w := s[..i] + s[i + 1..];
    forall x
      ensures x in w <==> x in s && x != s[i]
    {
      if x in w {
        var j :| 0 <= j < |w| && w[j] == x;
        if j < i {
          assert s[j] == x;
        } else {
          assert s[j + 1] == x;
        }
      }
      if x in s && x != s[i] {
        var j :| 0 <= j < |s| && s[j] == x;
        if j < i {
          assert w[j] == x;
        } else {
          assert w[j - 1] == x;
        }
      }
    }
  }

  lemma SpliceDistinct(s: seq<Key>, i: nat)
    requires Distinct(s) && i < |s|
    ensures Distinct(s[..i] + s[i + 1..])
  {
    var w := s[..i] + s[i + 1..];
    forall a, b | 0 <= a < b < |w|
      ensures w[a] != w[b]
    {
      var a' := if a < i then a else a + 1;
      var b' := if b < i then b else b + 1;
      assert w[a] == s[a'] && w[b] == s[b'];
    }
  }

  lemma SpliceTotal(s: seq<Key>, i: nat, m: map<Key, Bytes>)
    requires i < |s|
    ensures TotalBytes(s[..i] + s[i + 1..], m) == TotalBytes(s, m) - EntryBytes(m, s[i])
  {
    assert s == s[..i] + [s[i]] + s[i + 1..];
    TotalBytesAppend(s[..i] + [s[i]], s[i + 1..], m);
    TotalBytesAppend(s[..i], [s[i]], m);
    TotalBytesAppend(s[..i], s[i + 1..], m);
    assert TotalBytes([s[i]], m) == EntryBytes(m, s[i]) by {
      assert [s[i]][..0] == [];
    }
  }

  /** Unlinking the tail node leaves the list without its last element. */
  lemma WithoutLast(s: seq<Key>)
    requires Distinct(s) && |s| > 0
    ensures Without(s, s[|s| - 1]) == s[..|s| - 1]
  {
    var i := IndexOf(s, s[|s| - 1]);
    assert i == |s| - 1;
  }

  /** `_deleteNode`: unlink a resident node and subtract its byte length. */
  function DeleteNode(c: Cache, k: Key): (r: Cache)
    requires WellFormed(c) && k in c.entries
    ensures WellFormed(r)
    ensures r.entries == c.entries - {k}
    ensures r.order == Without(c.order, k)
    ensures r.size == c.size - |c.entries[k]|
  {
    WithoutFacts(c.order, k, c.entries);
    var r := Cache(c.entries - {k}, Without(c.order, k), c.size - |c.entries[k]|);
    TotalBytesFrame(r.order, c.entries, r.entries);
    r
  }

  /** `contains`: a pure membership test that agrees with the recency list. */
  function Contains(c: Cache, k: Key): (r: bool)
    requires WellFormed(c)
    ensures r <==> k in c.order
  {
    k in c.entries
  }

  /** The `TypeError` that calling a cached node as `hasOwnProperty` raises. */
  const NotAFunction: string := "this.entries.hasOwnProperty is not a function"

  /**
   * `contains` as written, on the plain object `{}` the constructor creates: once an entry is
   * cached under the key "hasOwnProperty", `this.entries.hasOwnProperty` finds that node
   * instead of the inherited method, and the call throws for every key.
   */
  function ContainsAsWritten(c: Cache, k: Key): (r: Result<bool>)
    requires WellFormed(c)
    ensures r.Err? <==> "hasOwnProperty" in c.order
    ensures r.Ok? ==> (r.value <==> k in c.order)
  {
    if "hasOwnProperty" in c.entries then Err(NotAFunction) else Ok(k in c.entries)
  }

  /**
   * `delete`: reports whether `k` was resident; afterwards it is not, the byte total dropped
   * by its length and the other keys keep their relative order.
   */
  function Delete(c: Cache, k: Key): (r: (Cache, bool))
    requires WellFormed(c)
    ensures WellFormed(r.0)
    ensures r.1 <==> k in c.entries
    ensures k !in r.0.entries
    ensures r.0.entries == c.entries - {k}
    ensures r.0.order == Without(c.order, k)
    ensures k in c.entries ==> r.0.size == c.size - |c.entries[k]|
    ensures k !in c.entries ==> r.0 == c
    ensures forall cfg :: Bounded(cfg, c) ==> Bounded(cfg, r.0)
  {
    if k in c.entries then (DeleteNode(c, k), true) else (c, false)
  }

  /** Evicting the tail shortens the list by one and leaves the totals of its prefixes alone. */
  lemma EvictTail(c: Cache)
    requires WellFormed(c) && |c.order| > 0
    ensures c.order[|c.order| - 1] in c.entries
    ensures DeleteNode(c, c.order[|c.order| - 1]).order == c.order[..|c.order| - 1]
    ensures forall m :: 0 <= m < |c.order| ==>
      TotalBytes(c.order[..m], DeleteNode(c, c.order[|c.order| - 1]).entries) == TotalBytes(c.order[..m], c.entries)
  {
    var n := |c.order|;
    var tail := c.order[n - 1];
    WithoutLast(c.order);
    var r := DeleteNode(c, tail);
    forall m | 0 <= m < n
      ensures TotalBytes(c.order[..m], r.entries) == TotalBytes(c.order[..m], c.entries)
    {
      forall x | x in c.order[..m]
        ensures EntryBytes(r.entries, x) == EntryBytes(c.entries, x)
      {
        var j :| 0 <= j < m && c.order[j] == x;
      }
      TotalBytesFrame(c.order[..m], r.entries, c.entries);
    }
  }

  /** Every list between the kept prefix and the full one overflowed, so the loop evicted it. */
  lemma EvictionStillNeeded(cfg: CacheConfig, c: Cache, c': Cache, kept: seq<Key>, newItemLength: nat)
    requires WellFormed(c) && |c.order| > 0
    requires c'.order == c.order[..|c.order| - 1]
    requires forall m :: 0 <= m < |c.order| ==>
      TotalBytes(c.order[..m], c'.entries) == TotalBytes(c.order[..m], c.entries)
    requires |kept| <= |c'.order|
    requires forall n :: |kept| < n <= |c'.order| ==>
      !Fits(cfg, TotalBytes(c'.order[..n], c'.entries), newItemLength)
    requires !Fits(cfg, c.size, newItemLength)
    ensures forall n :: |kept| < n <= |c.order| ==>
      !Fits(cfg, TotalBytes(c.order[..n], c.entries), newItemLength)
  {
    forall n | |kept| < n <= |c.order|
      ensures !Fits(cfg, TotalBytes(c.order[..n], c.entries), newItemLength)
    {
      if n == |c.order| {
        assert c.order[..n] == c.order;
      } else {
        assert c'.order[..n] == c.order[..n];
      }
    }
  }

  /** What one eviction and the rest of the loop promise about the shortened cache carries over to `c`. */
  lemma EvictStep(cfg: CacheConfig, c: Cache, r: Cache, newItemLength: nat)
    requires WellFormed(c) && |c.order| > 0 && !Fits(cfg, c.size, newItemLength)
    requires var c' := DeleteNode(c, c.order[|c.order| - 1]);
      && |r.order| <= |c'.order| && r.order == c'.order[..|r.order|]
      && (forall k :: k in r.entries ==> k in c'.entries && r.entries[k] == c'.entries[k])
      && (forall n :: |r.order| < n <= |c'.order| ==>
            !Fits(cfg, TotalBytes(c'.order[..n], c'.entries), newItemLength))
    ensures |r.order| <= |c.order| && r.order == c.order[..|r.order|]
    ensures forall k :: k in r.entries ==> k in c.entries && r.entries[k] == c.entries[k]
    ensures forall n :: |r.order| < n <= |c.order| ==>
      !Fits(cfg, TotalBytes(c.order[..n], c.entries), newItemLength)
  {
    EvictTail(c);
    var c' := DeleteNode(c, c.order[|c.order| - 1]);
    EvictionStillNeeded(cfg, c, c', r.order, newItemLength);
  }

  /**
   * `_makeSpace`: evicts from the tail while the cache is non-empty and the new item would
   * overflow `maxTotalSizeBytes`. The result is a prefix of the recency list (only the
   * least-recent keys go), it leaves room for the new item, and it is the longest such
   * prefix: every longer one would still have made the loop evict.
   */
  function MakeSpace(cfg: CacheConfig, c: Cache, newItemLength: nat): (r: Cache)
    requires WellFormed(c)
    ensures WellFormed(r)
    ensures !cfg.enabled ==> r == c
    ensures |r.order| <= |c.order| && r.order == c.order[..|r.order|]
    ensures forall k :: k in r.entries ==> k in c.entries && r.entries[k] == c.entries[k]
    ensures cfg.enabled ==> Fits(cfg, r.size, newItemLength)
    ensures cfg.enabled ==> forall n :: |r.order| < n <= |c.order| ==>
      !Fits(cfg, TotalBytes(c.order[..n], c.entries), newItemLength)
    decreases |c.order|
  {
    if cfg.enabled && c.size > 0 && c.size + newItemLength > cfg.maxTotalSizeBytes then
      var r := MakeSpace(cfg, DeleteNode(c, c.order[|c.order| - 1]), newItemLength);
      EvictStep(cfg, c, r, newItemLength);
      r
    else
      c
  }

  /** Linking a fresh node at the head keeps the structural invariant. */
  lemma InsertAtHead(c: Cache, k: Key, buffer: Bytes)
    requires WellFormed(c) && k !in c.entries
    ensures WellFormed(Cache(c.entries[k := buffer], [k] + c.order, c.size + |buffer|))
  {
    var e := c.entries[k := buffer];
    TotalBytesAppend([k], c.order, e);
    assert TotalBytes([k], e) == |buffer| by {
      assert [k][..0] == [];
    }
    TotalBytesFrame(c.order, c.entries, e);
  }

  /**
   * The admission half of `maybeAdd`, on a cache that no longer holds `k`: make space, then
   * link a new node holding `buffer` at the head.
   */
  function Admit(cfg: CacheConfig, c: Cache, k: Key, buffer: Bytes): (r: Cache)
    requires WellFormed(c) && k !in c.entries && cfg.enabled
    ensures WellFormed(r)
    ensures 0 < |r.order| <= |c.order| + 1
    ensures r.order[0] == k && k in r.entries && r.entries[k] == buffer
    ensures r.order[1..] == c.order[..|r.order| - 1]
    ensures forall x :: x in r.entries && x != k ==> x in c.entries && r.entries[x] == c.entries[x]
    ensures Fits(cfg, r.size - |buffer|, |buffer|)
    ensures forall n :: |r.order| - 1 < n <= |c.order| ==>
      !Fits(cfg, TotalBytes(c.order[..n], c.entries), |buffer|)
    ensures Bounded(cfg, c) && |buffer| < cfg.maxEntrySizeBytes <= cfg.maxTotalSizeBytes ==> Bounded(cfg, r)
  {
    var c2 := MakeSpace(cfg, c, |buffer|);
    InsertAtHead(c2, k, buffer);
    var r := Cache(c2.entries[k := buffer], [k] + c2.order, c2.size + |buffer|);
    assert r.order[1..] == c2.order;
    r
  }

  /** Deleting `k` does not change the totals of the prefixes of the remaining list. */
  lemma DeleteKeepsPrefixTotals(c: Cache, k: Key)
    requires WellFormed(c)
    ensures forall n :: 0 <= n <= |Without(c.order, k)| ==>
      TotalBytes(Without(c.order, k)[..n], c.entries - {k}) == TotalBytes(Without(c.order, k)[..n], c.entries)
  {
    var w := Without(c.order, k);
    WithoutFacts(c.order, k, c.entries);
    forall n | 0 <= n <= |w|
      ensures TotalBytes(w[..n], c.entries - {k}) == TotalBytes(w[..n], c.entries)
    {
      forall x | x in w[..n]
        ensures EntryBytes(c.entries - {k}, x) == EntryBytes(c.entries, x)
      {
        var j :| 0 <= j < n && w[j] == x;
      }
      TotalBytesFrame(w[..n], c.entries - {k}, c.entries);
    }
  }

  /**
   * `maybeAdd`: a no-op when the cache is disabled. Otherwise any entry under `k` is deleted
   * first; a buffer of `maxEntrySizeBytes` or more is then rejected, and an admitted one is
   * placed at the head after evicting the fewest tail entries that make it fit.
   */
  function MaybeAdd(cfg: CacheConfig, c: Cache, k: Key, buffer: Bytes): (r: Cache)
    requires WellFormed(c)
    ensures WellFormed(r)
    ensures !cfg.enabled ==> r == c
    ensures cfg.enabled && |buffer| >= cfg.maxEntrySizeBytes ==>
      r.entries == c.entries - {k} && r.order == Without(c.order, k)
    ensures cfg.enabled && |buffer| < cfg.maxEntrySizeBytes ==>
      && 0 < |r.order| <= |Without(c.order, k)| + 1
      && r.order[0] == k && k in r.entries && r.entries[k] == buffer
      && r.order[1..] == Without(c.order, k)[..|r.order| - 1]
      && (forall x :: x in r.entries && x != k ==> x in c.entries && r.entries[x] == c.entries[x])
      && Fits(cfg, r.size - |buffer|, |buffer|)
      && (forall n :: |r.order| - 1 < n <= |Without(c.order, k)| ==>
            !Fits(cfg, TotalBytes(Without(c.order, k)[..n], c.entries), |buffer|))
    ensures Bounded(cfg, c) && cfg.maxEntrySizeBytes <= cfg.maxTotalSizeBytes ==> Bounded(cfg, r)
  {
    if !cfg.enabled then c
    else
      var c1 := Delete(c, k).0;
      if |buffer| < cfg.maxEntrySizeBytes then
        DeleteKeepsPrefixTotals(c, k);
        Admit(cfg, c1, k, buffer)
      else
        c1
  }

  /** When the new item already fits, admission evicts nothing. */
  lemma AdmitWithoutEviction(cfg: CacheConfig, c: Cache, k: Key, buffer: Bytes)
    requires WellFormed(c) && k !in c.entries && cfg.enabled
    requires Fits(cfg, c.size, |buffer|)
    ensures Admit(cfg, c, k, buffer) == Cache(c.entries[k := buffer], [k] + c.order, c.size + |buffer|)
  {
    assert MakeSpace(cfg, c, |buffer|) == c;
  }

  lemma AddWithoutEviction(cfg: CacheConfig, c: Cache, k: Key, buffer: Bytes)
    requires WellFormed(c) && k !in c.entries && cfg.enabled
    requires |buffer| < cfg.maxEntrySizeBytes && Fits(cfg, c.size, |buffer|)
    ensures MaybeAdd(cfg, c, k, buffer) == Cache(c.entries[k := buffer], [k] + c.order, c.size + |buffer|)
  {
    AdmitWithoutEviction(cfg, c, k, buffer);
    assert Delete(c, k).0 == c;
  }

  /** Under the capacity invariant, re-adding a resident buffer right after unlinking it evicts nothing. */
  lemma ReinsertEvictsNothing(cfg: CacheConfig, c: Cache, k: Key)
    requires WellFormed(c) && k in c.entries && Bounded(cfg, c)
    ensures MaybeAdd(cfg, DeleteNode(c, k), k, c.entries[k])
      == Cache(c.entries, [k] + Without(c.order, k), c.size)
  {
    var buffer := c.entries[k];
    var c1 := DeleteNode(c, k);
    assert c1.entries[k := buffer] == c.entries by {
      assert c1.entries == c.entries - {k};
    }
    AddWithoutEviction(cfg, c1, k, buffer);
  }

  lemma BoundedHitEvictsNothing(cfg: CacheConfig, c: Cache, k: Key)
    requires WellFormed(c) && k in c.entries
    ensures Bounded(cfg, c) ==>
      MaybeAdd(cfg, DeleteNode(c, k), k, c.entries[k]) == Cache(c.entries, [k] + Without(c.order, k), c.size)
  {
    if Bounded(cfg, c) {
      ReinsertEvictsNothing(cfg, c, k);
    }
  }

  /**
   * `get`: on a hit, returns the stored buffer and re-inserts it at the head by deleting the
   * node and calling `maybeAdd` again; on a miss, returns nothing and changes nothing.
   * Under the capacity invariant a hit evicts nothing: the key set and byte total are unchanged.
   */
  function Get(cfg: CacheConfig, c: Cache, k: Key): (r: (Cache, Option<Bytes>))
    requires WellFormed(c)
    ensures WellFormed(r.0)
    ensures k !in c.entries ==> r.0 == c && r.1 == None
    ensures k in c.entries ==> r.1 == Some(c.entries[k])
    ensures k in c.entries && Bounded(cfg, c) ==>
      && r.0.entries == c.entries
      && r.0.size == c.size
      && r.0.order == [k] + Without(c.order, k)
    ensures Bounded(cfg, c) ==> Bounded(cfg, r.0)
  {
    if k in c.entries then
      var buffer := c.entries[k];
      BoundedHitEvictsNothing(cfg, c, k);
      (MaybeAdd(cfg, DeleteNode(c, k), k, buffer), Some(buffer))
    else
      (c, None)
  }

  /**
   * After a buffer is cached under "hasOwnProperty", `contains` as written throws whatever key
   * it is asked about, while the membership test the cache means to perform still answers.
   */
  lemma HasOwnPropertyKeyBreaksContains(buffer: Bytes, k: Key)
    requires |buffer| < 100
    ensures var c := MaybeAdd(CacheConfig(true, 100, 1000), EmptyCache(), "hasOwnProperty", buffer);
      && ContainsAsWritten(c, k).Err?
      && (Contains(c, k) <==> k == "hasOwnProperty")
  {
    var c := MaybeAdd(CacheConfig(true, 100, 1000), EmptyCache(), "hasOwnProperty", buffer);
    assert Without(EmptyCache().order, "hasOwnProperty") == [];
    assert c.order == ["hasOwnProperty"];
  }

  /**
   * Two 60-byte buffers do not both fit in 100 bytes: adding the second evicts the first,
   * which was the least recently touched.
   */
  lemma SecondLargeEntryEvictsFirst(foo: Bytes, bar: Bytes)
    requires |foo| == 60 && |bar| == 60
    ensures var cfg := CacheConfig(true, 100, 100);
            var c := MaybeAdd(cfg, MaybeAdd(cfg, EmptyCache(), "foo", foo), "bar", bar);
            "foo" !in c.entries && "bar" in c.entries && c.entries["bar"] == bar && c.order == ["bar"]
  {
    var cfg := CacheConfig(true, 100, 100);
    var c1 := MaybeAdd(cfg, EmptyCache(), "foo", foo);
    assert Without(EmptyCache().order, "foo") == [];
    assert c1.order == ["foo"];
    var c2 := MaybeAdd(cfg, c1, "bar", bar);
    assert Without(c1.order, "bar") == ["foo"];
    assert c2.order == ["bar"];
  }
}

=== FILE: results.dfy ===
/** Small failure-carrying datatypes shared by the other modules. */
module Results {

  /** A value that may be absent: JavaScript's `null` / `undefined`. */
  datatype Option<+T> = None | Some(value: T)

  /** The outcome of an operation that either produces a value or throws a message. */
  datatype Result<+T> = Ok(value: T) | Err(msg: string)
}

=== FILE: router.dfy ===
/**
 * The request-decision logic of dist/server.js (`startServer` and its `createServer`
 * handler), as pure step functions over an explicit runtime state.
 *
 * The handler runs in two kinds of atomic step: the synchronous part when a request
 * arrives (`Handle`), and one step per promise continuation or stream event that it
 * leaves behind (`FetchSettled`, `RemoteAnswered` for HEAD and DELETE, `BodyWritten`,
 * `UploadSettled`). The remote store is abstracted to the outcome each continuation
 * receives; the staging directory is abstracted to the set of keys that have a file.
 */
module Router {
  import opened Results
  import opened Buffers
  import opened MemoryCache
  import opened CircuitBreaker
  import opened ErrorPolicy
  import opened Depfile

  /** The configuration fields the handler reads. */
  datatype ServerConfig = ServerConfig(
    allowOffline: bool,
    allowGccDepfiles: bool,
    errorsBeforePausing: int,
    maxEntrySizeBytes: int,
    maxPendingUploadMB: int,
    asyncUpload: bool,
    cache: CacheConfig)

  /** `asyncUpload.maxPendingUploadMB` in bytes. */
  function PendingCeiling(cfg: ServerConfig): int
  {
    cfg.maxPendingUploadMB * 1024 * 1024
  }

  /**
   * The process-wide state: the breaker, `pendingUploadBytes`, the keys with a staging file,
   * the transfers in flight (key -> staged size, which the source keeps in closures) and the cache.
   */
  datatype State = State(
    breaker: Breaker,
    pendingUploadBytes: int,
    staged: set<Key>,
    uploads: map<Key, nat>,
    cache: Cache)

  /** The state right after start-up: the staging directory was cleared, nothing is in flight. */
  function Start(): (s: State)
    ensures s.pendingUploadBytes == 0 && s.staged == {} && s.uploads == map[]
    ensures s.breaker == Closed && WellFormed(s.cache) && s.cache.entries == map[]
  {
    State(Closed, 0, {}, map[], EmptyCache())
  }

  /** The request method; `OtherVerb` is any method other than the four the handler serves. */
  datatype Verb = GET | PUT | HEAD | DELETE | OtherVerb

  datatype Request = Request(verb: Verb, url: string)

  /** The cache key: the URL with its leading "/" removed (`req.url.slice(1)`). */
  function KeyOf(url: string): (key: Key)
    ensures |url| == 0 ==> key == []
    ensures |url| > 0 ==> url == [url[0]] + key
  {
    if |url| == 0 then [] else url[1..]
  }

  /** The value handed to `sendResponse`: nothing, a string, a buffer, or a byte count. */
  datatype Body = NoBody | Text(text: string) | Blob(bytes: Bytes) | ByteCount(count: int)

  /** The positions of the characters beyond U+FFFF, each written as a surrogate pair in UTF-16. */
  function Astral(s: string): set<int>
  {
    set i | 0 <= i < |s| && s[i] as int > 0xFFFF
  }

  /** The JavaScript `length` of a string: UTF-16 code units, two for a character beyond U+FFFF. */
  function Utf16Length(s: string): (n: nat)
    ensures n == |s| + |Astral(s)|
    ensures |s| <= n <= 2 * |s|
    ensures (forall i :: 0 <= i < |s| ==> s[i] as int <= 0xFFFF) ==> n == |s|
  {
    if |s| == 0 then 0
    else
      var m := |s| - 1;
      assert Astral(s) == Astral(s[..m]) + (if s[m] as int > 0xFFFF then {m} else {});
      Utf16Length(s[..m]) + (if s[m] as int > 0xFFFF then 2 else 1)
  }

  /**
   * The `responseLength` that `sendResponse` logs: a buffer's byte length, a string's
   * `length`, a number as it is, and 0 for anything else.
   */
  function ResponseLength(body: Body): (n: int)
    ensures body.Blob? ==> n == |body.bytes|
    ensures body.Text? ==> n == |body.text| + |Astral(body.text)|
    ensures body.NoBody? ==> n == 0
    ensures body.ByteCount? ==> n == body.count
  {
    match body
    case NoBody => 0
    case Text(t) => Utf16Length(t)
    case Blob(b) => |b|
    case ByteCount(c) => c
  }

  /**
   * A response: its status, the error written as JSON by `prepareErrorResponse` (if any),
   * the body argument and the log flags `fromCache` and `isBlockedGccDepfile`.
   */
  datatype Response = Response(status: int, error: Option<RemoteError>, body: Body, fromCache: bool, blockedDepfile: bool)

  function Reply(status: int, body: Body): Response
  {
    Response(status, None, body, false, false)
  }

  /** What a remote-store promise settles with. */
  datatype Outcome<T> = Done(value: T) | Failed(error: RemoteError)

  /** The continuation a step leaves behind. All but `StagingWrite` are remote-store calls. */
  datatype Awaiting =
    | GetObject(key: Key)
    | HeadObject(key: Key)
    | DeleteObject(key: Key)
    | StagingWrite(key: Key)
    | Upload(key: Key, size: nat)

  predicate CallsRemote(a: Option<Awaiting>)
  {
    a.Some? && !a.value.StagingWrite?
  }

  /** The result of one atomic step; `exit` means the process terminates after responding. */
  datatype Step = Step(state: State, response: Option<Response>, awaiting: Option<Awaiting>, exit: bool)

  function Answer(s: State, response: Response): Step
  {
    Step(s, Some(response), None, false)
  }

  /** The two reserved GET keys. */
  predicate Reserved(key: Key)
  {
    key == "ping" || key == "shutdown"
  }

  /** The synchronous part of the request handler, per verb. */
  function Handle(cfg: ServerConfig, s: State, req: Request): (r: Step)
    requires WellFormed(s.cache)
    ensures WellFormed(r.state.cache)
    ensures Bounded(cfg.cache, s.cache) ==> Bounded(cfg.cache, r.state.cache)
    // GET: ping, shutdown, cache hit, paused, remote fetch, in this order.
    ensures req.verb == GET && KeyOf(req.url) == "ping" ==>
      r == Answer(s, Reply(OK, Text("pong")))
    ensures req.verb == GET && KeyOf(req.url) == "shutdown" ==>
      r == Step(s, Some(Reply(OK, Text("shutting down"))), None, true)
    ensures req.verb == GET && !Reserved(KeyOf(req.url)) && KeyOf(req.url) in s.cache.entries ==>
      && r.response == Some(Response(OK, None, Blob(s.cache.entries[KeyOf(req.url)]), true, false))
      && r.awaiting == None && !r.exit
      && r.state == s.(cache := r.state.cache)
      && (Bounded(cfg.cache, s.cache) ==>
            r.state.cache.entries == s.cache.entries
            && r.state.cache.order == [KeyOf(req.url)] + Without(s.cache.order, KeyOf(req.url)))
    ensures req.verb == GET && !Reserved(KeyOf(req.url)) && KeyOf(req.url) !in s.cache.entries && s.breaker.paused ==>
      r == Answer(s, Reply(NotFound, NoBody))
    ensures req.verb == GET && !Reserved(KeyOf(req.url)) && KeyOf(req.url) !in s.cache.entries && !s.breaker.paused ==>
      r == Step(s, None, Some(GetObject(KeyOf(req.url))), false)
    // PUT: the root is forbidden, a staged key is a duplicate, otherwise the body is staged.
    ensures req.verb == PUT && req.url == "/" ==> r == Answer(s, Reply(Forbidden, NoBody))
    ensures req.verb == PUT && req.url != "/" && KeyOf(req.url) in s.staged ==>
      r == Answer(s, Reply(OK, NoBody))
    ensures req.verb == PUT && req.url != "/" && KeyOf(req.url) !in s.staged ==>
      r == Step(s.(staged := s.staged + {KeyOf(req.url)}), None, Some(StagingWrite(KeyOf(req.url))), false)
    // HEAD: a hit answers from the cache without touching its recency order.
    ensures req.verb == HEAD && KeyOf(req.url) in s.cache.entries ==>
      r == Answer(s, Response(OK, None, NoBody, true, false))
    ensures req.verb == HEAD && KeyOf(req.url) !in s.cache.entries && s.breaker.paused ==>
      r == Answer(s, Reply(NotFound, NoBody))
    ensures req.verb == HEAD && KeyOf(req.url) !in s.cache.entries && !s.breaker.paused ==>
      r == Step(s, None, Some(HeadObject(KeyOf(req.url))), false)
    // DELETE: always drops the key from the cache and always asks the remote store.
    ensures req.verb == DELETE ==>
      && r.state == s.(cache := r.state.cache)
      && r.state.cache.entries == s.cache.entries - {KeyOf(req.url)}
      && r.response == None && r.awaiting == Some(DeleteObject(KeyOf(req.url))) && !r.exit
    // Any other verb.
    ensures req.verb.OtherVerb? ==> r == Answer(s, Reply(MethodNotAllowed, NoBody))
  {
    var key := KeyOf(req.url);
    match req.verb
    case GET =>
      if key == "ping" then
        Answer(s, Reply(OK, Text("pong")))
      else if key == "shutdown" then
        Step(s, Some(Reply(OK, Text("shutting down"))), None, true)
      else if Contains(s.cache, key) then
        var got := Get(cfg.cache, s.cache, key);
        Answer(s.(cache := got.0), Response(OK, None, Blob(got.1.value), true, false))
      else if s.breaker.paused then
        Answer(s, Reply(NotFound, NoBody))
      else
        Step(s, None, Some(GetObject(key)), false)
    case PUT =>
      if req.url == "/" then
        Answer(s, Reply(Forbidden, NoBody))
      else if key in s.staged then
        Answer(s, Reply(OK, NoBody))
      else
        Step(s.(staged := s.staged + {key}), None, Some(StagingWrite(key)), false)
    case HEAD =>
      if Contains(s.cache, key) then
        Answer(s, Response(OK, None, NoBody, true, false))
      else if s.breaker.paused then
        Answer(s, Reply(NotFound, NoBody))
      else
        Step(s, None, Some(HeadObject(key)), false)
    case DELETE =>
      Step(s.(cache := Delete(s.cache, key).0), None, Some(DeleteObject(key)), false)
    case OtherVerb =>
      Answer(s, Reply(MethodNotAllowed, NoBody))
  }

  /**
   * The continuation of a GET fetch. A body is cached and returned unless it is a blocked
   * gcc depfile; either way the breaker records a success. A remote 404 also counts as a
   * success, any other error as a failure; the error is answered with its mapped status.
   */
  function FetchSettled(cfg: ServerConfig, s: State, key: Key, fetched: Outcome<Bytes>): (r: Step)
    requires WellFormed(s.cache)
    ensures WellFormed(r.state.cache)
    ensures r.awaiting == None && !r.exit && r.response.Some?
    ensures r.state.pendingUploadBytes == s.pendingUploadBytes
    ensures r.state.staged == s.staged && r.state.uploads == s.uploads
    ensures cfg.cache.maxEntrySizeBytes <= cfg.cache.maxTotalSizeBytes && Bounded(cfg.cache, s.cache) ==>
      Bounded(cfg.cache, r.state.cache)
    ensures fetched.Done? ==> r.state.breaker == OnSuccess(s.breaker)
    ensures fetched.Done? && !cfg.allowGccDepfiles && IsGccDepfile(fetched.value) ==>
      r.response == Some(Response(NotFound, None, NoBody, false, true)) && r.state.cache == s.cache
    ensures fetched.Done? && (cfg.allowGccDepfiles || !IsGccDepfile(fetched.value)) ==>
      && r.response == Some(Reply(OK, Blob(fetched.value)))
      && r.state.cache == MaybeAdd(cfg.cache, s.cache, key, fetched.value)
    ensures fetched.Failed? ==>
      && r.state.cache == s.cache
      && r.response == Some(Response(StatusFor(cfg.allowOffline, fetched.error, NotFound), Some(fetched.error), NoBody, false, false))
      && r.state.breaker == (if fetched.error.statusCode == Some(NotFound) then OnSuccess(s.breaker)
                             else OnError(s.breaker, cfg.errorsBeforePausing))
  {
    match fetched
    case Done(body) =>
      var s' := s.(breaker := OnSuccess(s.breaker));
      if !cfg.allowGccDepfiles && IsGccDepfile(body) then
        Answer(s', Response(NotFound, None, NoBody, false, true))
      else
        Answer(s'.(cache := MaybeAdd(cfg.cache, s.cache, key, body)), Reply(OK, Blob(body)))
    case Failed(err) =>
      var b := if err.statusCode == Some(NotFound) then OnSuccess(s.breaker) else OnError(s.breaker, cfg.errorsBeforePausing);
      Answer(s.(breaker := b), Response(StatusFor(cfg.allowOffline, err, NotFound), Some(err), NoBody, false, false))
  }

  /**
   * The continuation of a HEAD existence check and of a DELETE (the two are written alike):
   * an answer is a breaker success and gets 200; every error, 404 included, is a breaker
   * failure and is answered with the mapped status.
   */
  function RemoteAnswered(cfg: ServerConfig, s: State, answer: Outcome<()>): (r: Step)
    ensures r.awaiting == None && !r.exit
    ensures r.state == s.(breaker := r.state.breaker)
    ensures answer.Done? ==> r.state.breaker == OnSuccess(s.breaker) && r.response == Some(Reply(OK, NoBody))
    ensures answer.Failed? ==>
      && r.state.breaker == OnError(s.breaker, cfg.errorsBeforePausing)
      && r.response == Some(Response(StatusFor(cfg.allowOffline, answer.error, NotFound), Some(answer.error), NoBody, false, false))
  {
    match answer
    case Done(_) => Answer(s.(breaker := OnSuccess(s.breaker)), Reply(OK, NoBody))
    case Failed(err) =>
      Answer(s.(breaker := OnError(s.breaker, cfg.errorsBeforePausing)),
             Response(StatusFor(cfg.allowOffline, err, NotFound), Some(err), NoBody, false, false))
  }

  /** The staging file of `key` is removed: the upload is dropped. */
  function Drop(s: State, key: Key): State
  {
    s.(staged := s.staged - {key})
  }

  /**
   * The PUT body has been written to its staging file of `size` bytes. The cascade is:
   * paused, then oversize (`maxEntrySizeBytes`, 0 meaning unlimited, compared with `>`),
   * then the pending-byte budget. Each of those acknowledges with 200 and drops the file;
   * otherwise the budget is charged and the upload starts, acknowledged at once in async mode.
   */
  function BodyWritten(cfg: ServerConfig, s: State, key: Key, size: nat): (r: Step)
    ensures !r.exit && r.state.cache == s.cache && r.state.breaker == s.breaker
    ensures s.breaker.paused ==>
      r == Answer(Drop(s, key), Reply(OK, NoBody))
    ensures !s.breaker.paused && cfg.maxEntrySizeBytes != 0 && size > cfg.maxEntrySizeBytes ==>
      r == Answer(Drop(s, key), Reply(OK, ByteCount(size)))
    ensures !s.breaker.paused && !(cfg.maxEntrySizeBytes != 0 && size > cfg.maxEntrySizeBytes)
            && s.pendingUploadBytes + size > PendingCeiling(cfg) ==>
      r == Answer(Drop(s, key), Reply(OK, ByteCount(size)))
    ensures r.awaiting.Some? <==>
      !s.breaker.paused && !(cfg.maxEntrySizeBytes != 0 && size > cfg.maxEntrySizeBytes)
      && s.pendingUploadBytes + size <= PendingCeiling(cfg)
    ensures r.awaiting.Some? ==>
      && r.awaiting == Some(Upload(key, size))
      && r.state == s.(pendingUploadBytes := s.pendingUploadBytes + size, uploads := s.uploads[key := size])
      && r.state.pendingUploadBytes <= PendingCeiling(cfg)
      && (cfg.asyncUpload ==> r.response == Some(Reply(OK, ByteCount(size))))
      && (!cfg.asyncUpload ==> r.response == None)
  {
    if s.breaker.paused then
      Answer(Drop(s, key), Reply(OK, NoBody))
    else if cfg.maxEntrySizeBytes != 0 && size > cfg.maxEntrySizeBytes then
      Answer(Drop(s, key), Reply(OK, ByteCount(size)))
    else if s.pendingUploadBytes + size > PendingCeiling(cfg) then
      Answer(Drop(s, key), Reply(OK, ByteCount(size)))
    else
      var s' := s.(pendingUploadBytes := s.pendingUploadBytes + size, uploads := s.uploads[key := size]);
      Step(s', if cfg.asyncUpload then Some(Reply(OK, ByteCount(size))) else None, Some(Upload(key, size)), false)
  }

  /**
   * The upload of `key` settled. The breaker records the outcome; in sync mode the held
   * response is sent now (an ignorable error still answers 200); in every case the budget
   * is released and the staging file removed.
   */
  function UploadSettled(cfg: ServerConfig, s: State, key: Key, size: nat, answer: Outcome<()>): (r: Step)
    ensures r.awaiting == None && !r.exit && r.state.cache == s.cache
    ensures r.state.pendingUploadBytes == s.pendingUploadBytes - size
    ensures r.state.staged == s.staged - {key} && r.state.uploads == s.uploads - {key}
    ensures answer.Done? ==> r.state.breaker == OnSuccess(s.breaker)
    ensures answer.Failed? ==> r.state.breaker == OnError(s.breaker, cfg.errorsBeforePausing)
    ensures cfg.asyncUpload ==> r.response == None
    ensures !cfg.asyncUpload && answer.Done? ==> r.response == Some(Reply(OK, ByteCount(size)))
    ensures !cfg.asyncUpload && answer.Failed? ==>
      r.response == Some(Response(StatusFor(cfg.allowOffline, answer.error, OK), Some(answer.error), ByteCount(size), false, false))
  {
    var breaker := match answer
      case Done(_) => OnSuccess(s.breaker)
      case Failed(_) => OnError(s.breaker, cfg.errorsBeforePausing);
    var response :=
      if cfg.asyncUpload then None
      else match answer
        case Done(_) => Some(Reply(OK, ByteCount(size)))
        case Failed(err) => Some(Response(StatusFor(cfg.allowOffline, err, OK), Some(err), ByteCount(size), false, false));
    var s' := s.(breaker := breaker,
                 pendingUploadBytes := s.pendingUploadBytes - size,
                 staged := s.staged - {key},
                 uploads := s.uploads - {key});
    Step(s', response, None, false)
  }

  /** Everything that can happen to the server, one atomic step at a time. */
  datatype Event =
    | Arrive(req: Request)
    | FetchAnswered(key: Key, fetched: Outcome<Bytes>)
    | HeadAnswered(answer: Outcome<()>)
    | DeleteAnswered(answer: Outcome<()>)
    | BodyClosed(key: Key, size: nat)
    | UploadAnswered(key: Key, size: nat, answer: Outcome<()>)
    | PauseElapsed

  function Next(cfg: ServerConfig, s: State, e: Event): Step
    requires WellFormed(s.cache)
  {
    match e
    case Arrive(req) => Handle(cfg, s, req)
    case FetchAnswered(key, fetched) => FetchSettled(cfg, s, key, fetched)
    case HeadAnswered(answer) => RemoteAnswered(cfg, s, answer)
    case DeleteAnswered(answer) => RemoteAnswered(cfg, s, answer)
    case BodyClosed(key, size) => BodyWritten(cfg, s, key, size)
    case UploadAnswered(key, size, answer) => UploadSettled(cfg, s, key, size, answer)
    case PauseElapsed => Step(s.(breaker := Unpause(s.breaker)), None, None, false)
  }

  /**
   * Which continuation events can occur: a body closes only for a key that is being staged
   * and not yet uploading, and an upload settles only for a transfer in flight, with its size.
   */
  predicate Possible(s: State, e: Event)
  {
    match e
    case BodyClosed(key, _) => key in s.staged && key !in s.uploads
    case UploadAnswered(key, size, _) => key in s.uploads && s.uploads[key] == size
    case _ => true
  }

  /** Sum of the sizes of the transfers in flight. */
  ghost function SumOf(m: map<Key, nat>): nat
    decreases |m.Keys|
  {
    if m.Keys == {} then 0
    else
      var k :| k in m.Keys;
      m[k] + SumOf(m - {k})
  }

  /** `SumOf` does not depend on which key it takes first. */
  lemma {:induction false} SumOfRemove(m: map<Key, nat>, k: Key)
    requires k in m
    ensures SumOf(m) == m[k] + SumOf(m - {k})
    decreases |m.Keys|
  {
    var j :| j in m.Keys && SumOf(m) == m[j] + SumOf(m - {j});
    if j != k {
      var mj, mk := m - {j}, m - {k};
      assert mj.Keys == m.Keys - {j};
      assert mk.Keys == m.Keys - {k};
      SumOfRemove(mj, k);
      SumOfRemove(mk, j);
      assert mj - {k} == mk - {j};
    }
  }

  lemma SumOfAdd(m: map<Key, nat>, k: Key, v: nat)
    requires k !in m
    ensures SumOf(m[k := v]) == SumOf(m) + v
  {
    SumOfRemove(m[k := v], k);
    assert m[k := v] - {k} == m;
  }

  /**
   * The server invariant: the cache is well formed and within its limits, every transfer in
   * flight still has its staging file, `pendingUploadBytes` is the sum of their sizes and stays
   * within the ceiling (or is 0), and the error count is not negative.
   */
  ghost predicate Inv(cfg: ServerConfig, s: State)
  {
    && WellFormed(s.cache)
    && Bounded(cfg.cache, s.cache)
    && s.uploads.Keys <= s.staged
    && s.pendingUploadBytes == SumOf(s.uploads)
    && (s.pendingUploadBytes == 0 || s.pendingUploadBytes <= PendingCeiling(cfg))
    && s.breaker.errors >= 0
  }

  lemma StartInv(cfg: ServerConfig)
    ensures Inv(cfg, Start())
  {
  }

  /** The budget bookkeeping of one settling upload. */
  lemma SettleKeepsBudget(cfg: ServerConfig, s: State, key: Key, size: nat)
    requires Inv(cfg, s) && key in s.uploads && s.uploads[key] == size
    ensures 0 <= s.pendingUploadBytes - size == SumOf(s.uploads - {key})
    ensures s.pendingUploadBytes - size == 0 || s.pendingUploadBytes - size <= PendingCeiling(cfg)
  {
    SumOfRemove(s.uploads, key);
  }

  /**
   * Every possible step keeps the server invariant, provided the cache limits are consistent
   * (`cache.maxEntrySizeBytes <= cache.maxTotalSizeBytes`, which configuration validation checks).
   */
  lemma NextKeepsInv(cfg: ServerConfig, s: State, e: Event)
    requires Inv(cfg, s) && Possible(s, e)
    requires cfg.cache.maxEntrySizeBytes <= cfg.cache.maxTotalSizeBytes
    ensures Inv(cfg, Next(cfg, s, e).state)
    ensures 0 <= Next(cfg, s, e).state.pendingUploadBytes
  {
    var r := Next(cfg, s, e);
    match e
    case BodyClosed(key, size) =>
      if r.awaiting.Some? {
        SumOfAdd(s.uploads, key, size);
      }
    case UploadAnswered(key, size, answer) =>
      SettleKeepsBudget(cfg, s, key, size);
    case _ =>
  }

  /** While the breaker is paused, no GET, HEAD or PUT reaches the remote store. */
  lemma PausedBreakerSkipsRemote(cfg: ServerConfig, s: State, req: Request, key: Key, size: nat)
    requires WellFormed(s.cache) && s.breaker.paused && req.verb != DELETE
    ensures !CallsRemote(Handle(cfg, s, req).awaiting)
    ensures !CallsRemote(BodyWritten(cfg, s, key, size).awaiting)
  {
  }

  /** DELETE does not consult the breaker: it reaches the remote store even while paused. */
  lemma DeleteIgnoresBreaker(cfg: ServerConfig, s: State, url: string)
    requires WellFormed(s.cache) && s.breaker.paused
    ensures CallsRemote(Handle(cfg, s, Request(DELETE, url)).awaiting)
  {
  }

  /** A remote 404 is a breaker success for GET but a failure for HEAD and DELETE. */
  lemma NotFoundCountsOnlyAgainstHeadAndDelete(cfg: ServerConfig, s: State, key: Key, err: RemoteError)
    requires WellFormed(s.cache) && err.statusCode == Some(NotFound)
    ensures FetchSettled(cfg, s, key, Failed(err)).state.breaker.errors == 0
    ensures RemoteAnswered(cfg, s, Failed(err)).state.breaker.errors == s.breaker.errors + 1
  {
  }

  /**
   * A second PUT of a key whose staging file exists is acknowledged without staging or
   * uploading anything. The staging file is taken to exist from the first PUT's arrival.
   */
  lemma DuplicatePutCollapses(cfg: ServerConfig, s: State, url: string)
    requires WellFormed(s.cache) && url != "/"
    ensures var first := Handle(cfg, s, Request(PUT, url));
      var second := Handle(cfg, first.state, Request(PUT, url));
      && second.state == first.state
      && second.awaiting == None
      && second.response == Some(Reply(OK, NoBody))
  {
  }

  /**
   * Once the body of a PUT is written, every acknowledgement but the paused one logs the
   * staged size as its length.
   */
  lemma PutAcknowledgementLogsSize(cfg: ServerConfig, s: State, key: Key, size: nat)
    requires !s.breaker.paused
    ensures var r := BodyWritten(cfg, s, key, size);
      r.response.Some? ==> ResponseLength(r.response.value.body) == size
  {
  }

  /** A PUT over the pending budget is acknowledged but uploads nothing and leaves the budget alone. */
  lemma BudgetBackpressure(cfg: ServerConfig, s: State, key: Key, size: nat)
    requires !s.breaker.paused && s.pendingUploadBytes + size > PendingCeiling(cfg)
    ensures var r := BodyWritten(cfg, s, key, size);
      && r.awaiting == None
      && r.response.Some? && r.response.value.status == OK
      && r.state.pendingUploadBytes == s.pendingUploadBytes
      && key !in r.state.staged
  {
  }

  /** One failed GET of an uncached key: the request goes out and the error comes back. */
  function FailedGet(cfg: ServerConfig, s: State, key: Key, err: RemoteError): State
    requires WellFormed(s.cache)
  {
    FetchSettled(cfg, s, key, Failed(err)).state
  }

  /** `n` failed GETs in a row. */
  function FailedGets(cfg: ServerConfig, s: State, key: Key, err: RemoteError, n: nat): (r: State)
    requires WellFormed(s.cache)
    ensures r.cache == s.cache
  {
    if n == 0 then s else FailedGet(cfg, FailedGets(cfg, s, key, err, n - 1), key, err)
  }

  /**
   * Offline with a retryable error on every call: while not yet paused, each GET of an
   * uncached key reaches the remote store and is answered 404; after `errorsBeforePausing`
   * such failures the breaker is paused and the next GET is answered 404 with no remote call.
   */
  lemma {:induction false} OfflineOutagePausesBreaker(cfg: ServerConfig, s: State, key: Key, err: RemoteError, n: nat)
    requires WellFormed(s.cache) && s.breaker == Closed && !Reserved(key) && key !in s.cache.entries
    requires cfg.allowOffline && err.retryable && err.statusCode != Some(NotFound)
    requires cfg.errorsBeforePausing >= 1
    ensures FailedGets(cfg, s, key, err, n).breaker == AfterErrors(Closed, n, cfg.errorsBeforePausing)
    ensures FailedGets(cfg, s, key, err, n).breaker.paused <==> n >= cfg.errorsBeforePausing
    ensures var s' := FailedGets(cfg, s, key, err, n);
      n >= cfg.errorsBeforePausing ==>
        Handle(cfg, s', Request(GET, "/" + key)) == Answer(s', Reply(NotFound, NoBody))
    ensures StatusFor(cfg.allowOffline, err, NotFound) == NotFound
  {
    if n > 0 {
      OfflineOutagePausesBreaker(cfg, s, key, err, n - 1);
    }
    PausesExactlyAtThreshold(n, cfg.errorsBeforePausing);
    assert KeyOf("/" + key) == key;
  }

  /**
   * With the cache disabled a fetched body is returned but never kept, so asking again goes
   * back to the remote store.
   */
  lemma DisabledCacheRefetches(cfg: ServerConfig, s: State, key: Key, body: Bytes)
    requires WellFormed(s.cache) && !cfg.cache.enabled && !s.breaker.paused
    requires !Reserved(key) && key !in s.cache.entries
    requires cfg.allowGccDepfiles
    ensures var first := FetchSettled(cfg, s, key, Done(body));
      && first.response == Some(Reply(OK, Blob(body)))
      && Handle(cfg, first.state, Request(GET, "/" + key)).awaiting == Some(GetObject(key))
  {
    assert KeyOf("/" + key) == key;
  }
}

=== FILE: startup.dfy ===
/**
 * How configuration validation and the server meet: the cache limits a validated
 * configuration hands to the cache (`this.config.cache` in dist/memorycache.js) are
 * consistent, and with consistent limits the server invariant holds from start-up through
 * any sequence of events.
 */
module Startup {
  import opened Results
  import opened Buffers
  import opened MemoryCache
  import opened Router
  import JsonConfig

  /**
   * The cache settings as the cache reads them: `enabled` by truthiness, and the two limits
   * as the numbers `<` and `>` convert them to. A limit that converts to NaN has no integer
   * counterpart, so such settings are `None`, as is a `cache` that is not an object.
   */
  function CacheSettings(config: JsonConfig.Object): (r: Option<CacheConfig>)
    ensures r.Some? <==>
      && "cache" in config && config["cache"].JObj?
      && JsonConfig.ToNumber(JsonConfig.Get(config["cache"].fields, "maxEntrySizeBytes")).Some?
      && JsonConfig.ToNumber(JsonConfig.Get(config["cache"].fields, "maxTotalSizeBytes")).Some?
    ensures r.Some? ==>
      var f := config["cache"].fields;
      && JsonConfig.ToNumber(JsonConfig.Get(f, "maxEntrySizeBytes")) == Some(r.value.maxEntrySizeBytes)
      && JsonConfig.ToNumber(JsonConfig.Get(f, "maxTotalSizeBytes")) == Some(r.value.maxTotalSizeBytes)
      && (r.value.enabled <==> JsonConfig.Truthy(JsonConfig.Get(f, "enabled")))
  {
    if "cache" in config && config["cache"].JObj? then
      var f := config["cache"].fields;
      var entry := JsonConfig.ToNumber(JsonConfig.Get(f, "maxEntrySizeBytes"));
      var total := JsonConfig.ToNumber(JsonConfig.Get(f, "maxTotalSizeBytes"));
      if entry.Some? && total.Some? then
        Some(CacheConfig(JsonConfig.Truthy(JsonConfig.Get(f, "enabled")), entry.value, total.value))
      else None
    else None
  }

  /**
   * The limits of a configuration that passes the intended check are consistent: no entry
   * limit above the total.
   */
  lemma ValidatedCacheIsConsistent(config: JsonConfig.Object)
    requires JsonConfig.ValidateConfigNumeric(config).Ok?
    requires CacheSettings(JsonConfig.ValidateConfigNumeric(config).value).Some?
    ensures var cc := CacheSettings(JsonConfig.ValidateConfigNumeric(config).value).value;
      cc.maxEntrySizeBytes <= cc.maxTotalSizeBytes
  {
  }

  /**
   * The check as written lets the limits "100" and "20" through, and the cache, which compares
   * them as numbers, then holds a 50-byte entry against a 20-byte total.
   */
  lemma TextLimitsOverflowCache(body: Bytes)
    requires |body| == 50
    ensures JsonConfig.ValidateConfig(JsonConfig.TextLimitsConfig()).Ok?
    ensures var cc := CacheSettings(JsonConfig.ValidateConfig(JsonConfig.TextLimitsConfig()).value);
      && cc == Some(CacheConfig(true, 100, 20))
      && !Bounded(cc.value, MaybeAdd(cc.value, EmptyCache(), "k", body))
  {
    JsonConfig.TextComparisonAcceptsInvertedLimits();
    var cache := JsonConfig.TextLimitsConfig()["cache"];
    assert CacheSettings(map["cache" := cache]) == Some(CacheConfig(true, 100, 20));
    FiftyBytesOverflow(body);
  }

  lemma FiftyBytesOverflow(body: Bytes)
    requires |body| == 50
    ensures var cc := CacheConfig(true, 100, 20); !Bounded(cc, MaybeAdd(cc, EmptyCache(), "k", body))
  {
    var c := MaybeAdd(CacheConfig(true, 100, 20), EmptyCache(), "k", body);
    assert Without(EmptyCache().order, "k") == [];
    assert "k" in c.entries && c.size == 50;
  }

  /** Events that cannot occur in `s` are skipped; every other event is one step of the server. */
  ghost function Run(cfg: ServerConfig, s: State, events: seq<Event>): (r: State)
    requires Inv(cfg, s) && cfg.cache.maxEntrySizeBytes <= cfg.cache.maxTotalSizeBytes
    ensures Inv(cfg, r)
    decreases |events|
  {
    if |events| == 0 then s
    else if !Possible(s, events[0]) then Run(cfg, s, events[1..])
    else
      NextKeepsInv(cfg, s, events[0]);
      Run(cfg, Next(cfg, s, events[0]).state, events[1..])
  }

  /**
   * With the cache limits of a configuration that passes the intended check, whatever happens after start-up the
   * cache holds no entry of `maxEntrySizeBytes` or more, stays within `maxTotalSizeBytes`
   * once it holds anything, and the bytes awaiting upload stay within the ceiling.
   */
  lemma {:induction false} ValidatedServerStaysWithinLimits(config: JsonConfig.Object, cfg: ServerConfig, events: seq<Event>)
    requires JsonConfig.ValidateConfigNumeric(config).Ok?
    requires CacheSettings(JsonConfig.ValidateConfigNumeric(config).value) == Some(cfg.cache)
    ensures cfg.cache.maxEntrySizeBytes <= cfg.cache.maxTotalSizeBytes
    ensures var s := Run(cfg, Start(), events);
      && WellFormed(s.cache)
      && (forall k :: k in s.cache.entries ==> |s.cache.entries[k]| < cfg.cache.maxEntrySizeBytes)
      && (s.cache.entries == map[] || s.cache.size <= cfg.cache.maxTotalSizeBytes)
      && 0 <= s.pendingUploadBytes
      && (s.pendingUploadBytes == 0 || s.pendingUploadBytes <= PendingCeiling(cfg))
  {
    ValidatedCacheIsConsistent(config);
    StartInv(cfg);
  }
}
